=== FILE: README.md ===
# Reactify core, modelled in Dafny

Reactify turns a scraped web page into React components. This project models
the two pure transforms that carry the logic, plus the pure parts of the three
API routes around them:

- **Page segmentation** (`parseHtml` and `processElement` in `lib/parse.ts`).
  Relative `img src`, `img srcset` and `a href` values are made absolute against
  the page URL. Then `script`, `style`, `noscript` and `iframe` elements are
  dropped. Candidate sections are gathered tier by tier:
  - `<section>` elements are appended;
  - `<header>` elements are unshifted;
  - `<footer>` elements are appended;
  - `main > div` blocks are added when fewer than three sections were found;
  - `body > div` blocks are added when none were found.

  Each candidate is classified by a first-match keyword table and given an id
  from a running counter. Only sections with more than 100 UTF-16 code units
  of HTML are kept (JavaScript's `length`).
- **The live-preview transform** (`transformCode` in
  `components/generator/LivePreview.tsx`). A fixed sequence of global regular
  expression replacements strips module syntax and TypeScript and fixes JSX
  attributes. The source is trimmed, the component to render is detected, and
  everything is wrapped in a `try { … render(…) } catch (e) { render(<pre>…) }`
  program.
- **Route helpers** (`app/api/generate`, `app/api/iterate`, `app/api/scrape`).
  These cover request validation, the 50 000-character cap, the prompt text,
  the markdown-fence cleanup of the model's answer, the failure-message mapping,
  and the scrape URL guard.

Modules, one file each:

- `Wrappers`: the optional value.
- `Strings`: the JavaScript string primitives used (`\s`, `\w`, `trim`,
  `includes`, `split`/`join`, `toLowerCase`, decimal numerals, `length` in
  UTF-16 code units, and the whitespace collapse `replace(/\s+/g, ' ')`).
- `Patterns`: the regular expressions of the live preview's replace passes and
  of the fence cleanup, each given as a match length at each position, and the
  left-to-right "replace every match" scan of `String.prototype.replace`.
- `PreviewProgram`: the emitted try/catch program.
- `LivePreview`: `transformCode`.
- `Fences`: the fence cleanup.
- `Routes`: the route handlers.
- `Dom`: an immutable tree with `.text()`, selectors and removal.
- `Resolve`: URL resolution.
- `Sections`: `processElement`.
- `Runs`: reversal, filtering, and runs of distinctly numbered records.
- `Parse`: the tiers and `parseHtml`.

Several things are parameters rather than modelled:
- resolving a URL (`new URL(url, base)`), as a partial function;
- printing an element (`outerHTML`);
- the language-model call;
- the API key from the environment;
- the outcome of reading the request body.

## Model

| member | source | states |
|---|---|---|
| Resolve.Absolute | lib/parse.ts:17-22 | Three cases: a value the guard rejects is kept, a value whose resolution fails is kept, and otherwise the resolved URL replaces it |
| Resolve.ResolveImg | lib/parse.ts:16-36 | An image keeps its attribute names and every attribute other than `src` and `srcset`. `src` is resolved only when non-empty and starting with neither `http` nor `data:`. A non-empty `srcset` is rewritten and an empty one is kept |
| Resolve.ResolveLink | lib/parse.ts:40-46 | A link keeps every attribute but `href`. `href` is resolved only when non-empty and starting with none of `http`, `#`, `mailto:`. A failed resolution keeps the old value |
| Resolve.RewritePart | lib/parse.ts:26-33 | A `srcset` part is kept verbatim unless its first token needs resolution and resolves. In that case it becomes the resolved URL, a space, and its second token |
| Resolve.RewriteParts | lib/parse.ts:26-34 | The `map` over the parts rewrites each part on its own and keeps the number of parts |
| Resolve.SrcsetKeepsEntries | lib/parse.ts:24-35 | When resolved URLs contain no comma, the rewritten `srcset` splits on `,` into as many entries as the original |
| Resolve.SrcsetSpacesCommas | lib/parse.ts:26-34 | Joining with `", "` is not the inverse of splitting on `,`: `","` becomes `", "` even though there is nothing to resolve |
| Resolve.SrcStable | lib/parse.ts:18-20 | When every resolved URL starts with `http`, resolving an image source a second time leaves it as the first pass did |
| Resolve.ResolveNode | lib/parse.ts:16-47 | A text node is unchanged. An element keeps its tag: an `img` gets the attributes `ResolveImg` gives, an `a` those `ResolveLink` gives, any other element keeps its own. Its children are the resolved children, in order |
| Resolve.ResolveAll | lib/parse.ts:16-47 | Every node of a forest is resolved on its own, in place |
| Resolve.ResolveKeepsShape | lib/parse.ts:16-47 | Resolution changes only attribute values: tags, nesting and text are those of the input tree |
| Dom.CleanAll | lib/parse.ts:50-53 | No top-level node of a cleaned forest is a `script`, `style`, `noscript` or `iframe` element, and the forest never grows |
| Dom.CleanAllFilters | lib/parse.ts:50-53 | Cleaning a forest keeps exactly its trees that are not removed elements, in order, each cleaned in turn |
| Dom.CleanAllUntouched | lib/parse.ts:50-53 | A forest with none of the four tags anywhere comes out of cleaning unchanged |
| Dom.CleanAllLeavesNone | lib/parse.ts:50-53 | After cleaning, a selector for any of the four removed tags finds nothing anywhere in the tree |
| Dom.CleanAllIdempotent | lib/parse.ts:50-53 | Cleaning a cleaned forest changes nothing |
| Dom.SelectAll | lib/parse.ts:61-92 | Every element that a `tag` or `parent > tag` selector returns has that tag |
| Dom.SelectAllIsFilter | lib/parse.ts:61-92 | A selection equals the document-order list of all elements, each paired with its parent's tag, filtered by the selector |
| Dom.SelectAllMembers | lib/parse.ts:61-92 | An element is selected exactly when it occurs in the forest with the selector's tag, under a parent whose tag the selector accepts |
| Dom.TextOfAllConcat | lib/parse.ts:79 | The text of a forest is the concatenation of the texts of its parts |
| Sections.ClassifyCases | lib/parse.ts:108-118 | Each kind is chosen exactly when its keyword occurs in the lowered `class id` key and no earlier keyword does. `unknown` is chosen exactly when none occurs |
| Sections.Preview | lib/parse.ts:121 | The preview is the longest prefix of the collapsed and trimmed text that fits in 150 UTF-16 code units, followed by `...`. It is the whole text when that fits |
| Sections.PreviewKeepsShortText | lib/parse.ts:121 | A preview of a text of at most 150 code units keeps every non-whitespace character of the element's text, in order |
| Sections.ClassKeyParts | lib/parse.ts:108-110 | The lowered key is the lowered `class`, a space, and the lowered `id`, so a keyword split across the two attributes is not found |
| Sections.Process | lib/parse.ts:100-135 | The section carries the given id and the printed element. Its type is the keyword table's kind and one of the seven types; its name is that kind's display name, or the default for `unknown`. The preview is the preview of the element's text |
| Sections.Record | lib/parse.ts:108-134 | The returned section keeps the given id, HTML and preview. Its type is one of the seven types and is `unknown` exactly for the unknown kind, whose name is the default |
| Sections.KindNamesFixed | lib/parse.ts:108-118 | A recognised kind's name is one of the six fixed names. Two defaults give the same name exactly when the kind is recognised or the defaults are equal |
| Sections.ProcessNames | lib/parse.ts:107-118 | A recognised kind records one of its six fixed names. Changing the default name changes the recorded name exactly when the type is `unknown` |
| Sections.ProcessPreviewByText | lib/parse.ts:121 | Two elements with the same text get the same preview |
| Strings.CollapseSpaces | lib/parse.ts:121 | Collapsing whitespace leaves only single spaces between non-space runs and keeps whether the text starts with whitespace |
| Strings.CollapseRun | lib/parse.ts:121 | A whitespace run of any length and kind becomes one space |
| Strings.CollapseConcat | lib/parse.ts:121 | Collapsing commutes with concatenation at any cut that is not inside a whitespace run. With `CollapseRun` this fixes the result: visible characters in order, one space per run |
| Strings.CollapseSingleSpaced | lib/parse.ts:121 | Text whose whitespace is already single ` ` characters is left unchanged |
| Strings.CollapseKeepsText | lib/parse.ts:121 | Collapsing whitespace keeps every non-whitespace character, in order |
| Strings.Trim | components/generator/LivePreview.tsx:45 | `trim` yields a text with no whitespace at either end, which sits in the input between two all-whitespace stretches |
| Strings.ToLower | lib/parse.ts:110 | Lowering leaves no ASCII capital and never shortens the text |
| Strings.ToLowerPointwise | lib/parse.ts:110 | On text without U+0130 and U+212A, lowering maps character by character, ASCII capitals to small letters |
| Strings.ToLowerIdempotent | lib/parse.ts:110 | Lowering a lowered text changes nothing |
| Strings.Utf16Length | lib/parse.ts:79 | A text's JavaScript length is between its character count and twice that, and equals the character count exactly when no character lies outside the Basic Multilingual Plane |
| Strings.Utf16Take | lib/parse.ts:121 | `slice(0, n)` yields a prefix of at most `n` code units, the whole text when it fits, and otherwise one the next character would overflow |
| Strings.IncludesIff | lib/parse.ts:113-118 | The left-to-right `includes` scan succeeds exactly when the pattern occurs somewhere |
| Strings.JoinSplit | lib/parse.ts:26 | Joining the parts of a split with the same separator restores the text |
| Strings.SplitCount | lib/parse.ts:26 | Splitting on a character yields one more part than there are occurrences of it |
| Strings.DigitsValueOfNatToString | lib/parse.ts:62 | The decimal numeral of a counter value reads back as that value |
| Strings.NumberedLabelInjective | lib/parse.ts:62-89 | Two ids made of a prefix ending in `-` and a counter value are different when the counter values are |
| Parse.PushAllAppends | lib/parse.ts:61-63 | Pushing elements one by one appends them in order, numbered from the current counter, and advances the counter by their number |
| Parse.UnshiftAllPrepends | lib/parse.ts:66-68 | Unshifting elements one by one puts them in front in reverse order, each numbered by the order it was visited in |
| Parse.UnshiftThenPush | lib/parse.ts:66-73 | Unshifting headers and then pushing footers gives reversed headers, the earlier list, then footers, with the counter advanced by both |
| Parse.PushKeptFilters | lib/parse.ts:77-82 | A guarded push loop is the plain push loop over the elements that pass the guard: rejected elements take no counter value |
| Parse.StructuralShape | lib/parse.ts:61-73 | After the three structural tiers the list is reversed headers, then sections, then footers. The counter equals the list length |
| Parse.MainTier | lib/parse.ts:76-83 | The `main > div` tier appends the blocks with more than 50 UTF-16 code units of trimmed text, numbered from the list length |
| Parse.BodyTier | lib/parse.ts:86-92 | On an empty list the `body > div` tier yields the blocks with more than 100 UTF-16 code units of trimmed text, numbered from 0 |
| Parse.FallbackShape | lib/parse.ts:76-92 | The two guarded tiers keep a list of three or more and extend a shorter one by the `main > div` blocks. The `body > div` blocks are used only when the list is still empty. The counter stays equal to the length |
| Parse.GatherLayout | lib/parse.ts:56-92 | All five tiers together produce exactly the reference layout (structural tiers, then the fallbacks by their guards), and the counter is its length |
| Parse.MakerOfFaithful | lib/parse.ts:62-89 | Every tier's section reads back the counter value it was numbered with, and has a valid type and a bounded preview |
| Parse.NumberedFacts | lib/parse.ts:57-92 | One tier's sections carry distinct counter values within the range the tier used |
| Parse.StructuralRun | lib/parse.ts:57-73 | After the structural tiers, the ids carry pairwise distinct counter values below the list length, despite the reversal of the headers |
| Parse.GatherRun | lib/parse.ts:57-92 | After all tiers, ids are pairwise distinct and every section is well formed |
| Runs.ReverseRun | lib/parse.ts:66-68 | Reversing a list of distinctly numbered records keeps them distinct and in range |
| Runs.JoinThree | lib/parse.ts:61-73 | Reversed headers, sections and footers numbered from adjacent ranges form one distinctly numbered list over the joined range |
| Runs.FilterMembers | lib/parse.ts:97 | A record is in the filtered list exactly when it is in the list and passes the test |
| Runs.FilterRun | lib/parse.ts:97 | Filtering keeps records distinctly numbered and in range |
| Parse.ParseHtml | lib/parse.ts:11-98 | Every returned section has more than 100 UTF-16 code units of HTML, one of the seven types and a bounded preview. Ids are pairwise distinct |
| Parse.ParseHtmlLayout | lib/parse.ts:11-97 | The result is the reference layout with the small sections removed, in layout order. A section is returned exactly when it is in the layout and large |
| Patterns.MatchSpacedAttr | components/generator/LivePreview.tsx:41-42 | The attribute pattern matches at a position exactly when whitespace is followed there by the attribute name |
| Patterns.MatchFence | app/api/generate/route.ts:83 | The fence pattern matches exactly where three backticks start |
| Patterns.RewriteEmpty | components/generator/LivePreview.tsx:22-43 | A global replace of the empty text gives the empty text |
| Patterns.RewriteNoMatch | components/generator/LivePreview.tsx:26-43 | A global replace of a text where the pattern matches nowhere returns the text unchanged |
| Patterns.MatchesAreConsumed | components/generator/LivePreview.tsx:26-43 | Every position where the pattern matches in the input lies inside a match the left-to-right pass replaces |
| Patterns.ScanUnmatched | components/generator/LivePreview.tsx:26-43 | A stretch with no match is copied unchanged into the output |
| Patterns.ScanThrough | components/generator/LivePreview.tsx:26-43 | The output splits at every position the scan stops at: what it wrote before, then the scan from there |
| Patterns.ReachedUnlessOverlapped | components/generator/LivePreview.tsx:26-43 | A position no earlier match runs over is a position the scan stops at |
| Patterns.VisitedMatchReplaced | components/generator/LivePreview.tsx:26-43 | A match at a position the scan stops at appears in the output as the replacement, followed by the scan after the match |
| Patterns.RemovalShortens | components/generator/LivePreview.tsx:26-43 | A replace with the empty string never lengthens the text |
| LivePreview.AttrReplacementsAreSafe | components/generator/LivePreview.tsx:41-42 | Neither ` className=` nor ` htmlFor=` contains or starts a whitespace-preceded `class=` or `for=` |
| LivePreview.ScanLeavesNone | components/generator/LivePreview.tsx:41-42 | A pass whose matches cover every whitespace-preceded attribute and whose replacement is safe leaves none in its output |
| LivePreview.FixJsx | components/generator/LivePreview.tsx:41-42 | After the two attribute replacements no whitespace-preceded `class=` or `for=` remains |
| LivePreview.FixJsxOfPlain | components/generator/LivePreview.tsx:41-42 | Source with no whitespace-preceded `class=` or `for=` passes through unchanged |
| LivePreview.AttrMatchesApart | components/generator/LivePreview.tsx:41-42 | Two attribute matches never overlap, because the attribute names hold no whitespace |
| LivePreview.AttrReplaced | components/generator/LivePreview.tsx:41-42 | Every whitespace-preceded `class=` (or `for=`) of the input is reached by the pass and written out as ` className=` (or ` htmlFor=`) |
| LivePreview.Normalize | components/generator/LivePreview.tsx:22-45 | The normalised source has no whitespace at either end |
| LivePreview.EntryAt | components/generator/LivePreview.tsx:48-49 | A declaration capture is always a non-empty run of word characters |
| LivePreview.First | components/generator/LivePreview.tsx:48-49 | A non-global `match` returns the leftmost capture, and returns none exactly when no position matches |
| LivePreview.DetectComponent | components/generator/LivePreview.tsx:48-50 | The entry is the leftmost `function Name` capture when there is one, otherwise the leftmost `const Name = (` capture. It is absent exactly when neither shape occurs, and it is always a word |
| PreviewProgram.RenderCallRendersOnce | components/generator/LivePreview.tsx:57-60 | The render call, for a name or for `null`, holds exactly one `render(` and ends with `;` |
| PreviewProgram.RenderCounts | components/generator/LivePreview.tsx:53-67 | The wrapper adds exactly two `render(` calls to those of the source: one in the `try` branch and one in the `catch` branch |
| PreviewProgram.Program | components/generator/LivePreview.tsx:53-67 | The source sits verbatim right after `try {` and the render call right after the source. The program has two more `render(` calls than the source |
| LivePreview.TransformCode | components/generator/LivePreview.tsx:21-68 | The program embeds the normalised input verbatim, then the call rendering the detected component, with exactly two `render(` calls of its own |
| LivePreview.NormalizeEmpty | components/generator/LivePreview.tsx:22-45 | The normalisation of the empty text is empty |
| LivePreview.DetectEmpty | components/generator/LivePreview.tsx:48-50 | No component is detected in the empty text |
| LivePreview.MissingInputRendersNull | components/generator/LivePreview.tsx:22 | A missing input behaves as the empty text, and the program then renders `null` |
| LivePreview.DirectiveCanSurvive | components/generator/LivePreview.tsx:26 | A single left-to-right pass can leave a `"use client"` directive: removing an inner one can join the text around it into a new one |
| LivePreview.ExportDefaultCanSurvive | components/generator/LivePreview.tsx:29-31 | The `export default ` pass and then the `^export\s+` pass can leave an `export default `: `x export export default default y` becomes `x export default y` |
| LivePreview.LineExportCanSurvive | components/generator/LivePreview.tsx:29-31 | The two module passes can leave an `export` at the start of a line: `export export x` becomes `export x` |
| Fences.FenceRemovalComplete | app/api/generate/route.ts:83 | Replacing every three backticks leaves no three consecutive backticks, even where removal joins backticks together |
| Fences.CleanFences | app/api/generate/route.ts:83 | The cleaned answer has no three consecutive backticks and no whitespace at either end |
| Fences.CleanFencesIdempotent | app/api/generate/route.ts:83 | Cleaning a cleaned answer changes nothing |
| Fences.CleanFencesOfPlain | app/api/generate/route.ts:83 | On text without backticks the cleanup is just `trim` |
| Routes.Truncate | app/api/generate/route.ts:64 | Text of up to 50 000 characters is sent whole. Longer text becomes its first 50 000 characters followed by `...`, so at most 50 003 characters are sent |
| Routes.TruncateIdempotent | app/api/generate/route.ts:64 | Capping an already capped text changes nothing |
| Routes.TruncateKeepsPrefix | app/api/generate/route.ts:64 | Every character below the cap is the source character at the same index |
| Routes.GenerateMessage | app/api/generate/route.ts:66-71 | The message holds the HTML verbatim after its heading. The requirements line appears exactly when `requirements` is truthy |
| Routes.GenerateMessageRequirements | app/api/generate/route.ts:66-71 | Two messages for the same HTML are equal only when both or neither have a requirements line, with the same requirements |
| Routes.FailureText | app/api/generate/route.ts:87-92 | A thrown `Error` reports its own message, and any other thrown value reports the route's fallback text |
| Routes.Generate | app/api/generate/route.ts:50-94 | A 400 comes exactly for a readable body without truthy `html`, with the "HTML content is required" text. A missing key gives a 500 with its own text. A 200 comes exactly when the key is set and the model answers for the capped message, and carries the answer with its fences cleaned; it has no fence and is trimmed. A model failure or an unreadable body gives a 500 with the thrown message or the route's fallback |
| Routes.GenerateReturnsCleanCode | app/api/generate/route.ts:78-85 | The returned code is a fixed point of the fence cleanup |
| Routes.IterateMessage | app/api/iterate/route.ts:39-45 | The message holds the current code and then the instruction verbatim, each after its heading |
| Routes.ThrownMessage | app/api/iterate/route.ts:63 | The failure text is never empty. A non-empty `message`, on an `Error` or any other thrown value, is used as it is. An empty or missing `message` gives "Failed to iterate component" |
| Routes.MapFailureCases | app/api/iterate/route.ts:63-69 | A message with both `404` and `not found` maps to the "not enabled" text. Otherwise one with `API_KEY` maps to the key text, and any other message is kept |
| Routes.MapFailureStable | app/api/iterate/route.ts:63-69 | Mapping a mapped text again changes nothing: the two replacement texts contain none of the markers |
| Routes.IterateFailure | app/api/iterate/route.ts:60-74 | The error reply text is non-empty and is one of the two fixed texts or the thrown message |
| Routes.Iterate | app/api/iterate/route.ts:27-76 | A 400 comes exactly for a readable body missing either field, with its fixed text. A missing key gives a 500 with its own text. A 200 comes exactly when the key is set and the model answers, and carries the answer with its fences cleaned; it has no fence and is trimmed. A model failure or an unreadable body gives a 500 with the mapped failure text. Every error text is non-empty |
| Routes.IterateReportsDisabledApi | app/api/iterate/route.ts:63-74 | A model failure naming `404` and `not found` is reported as the disabled API, even if it also names the key |
| Routes.ScrapeGuard | app/api/scrape/route.ts:9-17 | A URL reaches the scraper exactly when it is non-empty, starts with `http`, and contains neither loopback name. Otherwise the reply is a 400: `Invalid URL` when the URL is missing or empty or lacks the prefix, else `Localhost URLs are not allowed` |
| Routes.ScrapeRefusesLoopback | app/api/scrape/route.ts:15-17 | A URL mentioning `localhost` or `127.0.0.1` anywhere is refused, specifically as a loopback URL when it starts with `http` |
| Routes.ScrapeAdmits | app/api/scrape/route.ts:9-20 | Every admitted URL starts with `http` and contains neither loopback name |
| Routes.Scrape | app/api/scrape/route.ts:5-38 | A 400 comes exactly when the guard refuses a readable request. A 200 comes exactly when the guard admits the URL and fetching and parsing succeed. Only a 200 carries sections: those the pipeline produced, with the admitted URL, which starts with `http` and names no loopback host. A refused URL gets the guard's reply (`Invalid URL` or `Localhost URLs are not allowed`). An unreadable body or a failed fetch or parse gives a 500 whose error is the thrown `Error`'s message, or `Failed to scrape` for anything else |

## Left out

- The HTML parser (`cheerio.load`) is not modelled. The document is given as its parsed tree of elements and text nodes.
- The selector engine is reduced to the two shapes used, `tag` and `parent > tag`.
- Dom.SelectAll: its own contract states only that every result has the selected tag, to keep the recursion cheap. Completeness and document order are stated separately by Dom.SelectAllIsFilter and Dom.SelectAllMembers.
- Dom.CleanAll: its own contract states only that no removed element is left at the top and that the forest does not grow. Which trees are kept, and in what order, is stated by Dom.CleanAllFilters and Dom.CleanAllUntouched.
- `.text()` is modelled as the concatenation of text nodes in document order.
- `outerHTML` is a parameter. How an element prints is the HTML serialiser's business; the final filter compares its length in UTF-16 code units with 100.
- `new URL(url, base).toString()` is a parameter that may fail. The internals of the WHATWG URL parser are not modelled.
- Resolve.SrcsetKeepsEntries: assumes resolved URLs contain no comma. A serialised URL can carry one in its path or query, and then the entry count grows.
- The network calls are parameters or left out:
  - the page fetch (`scrapeUrl`) and the parse that follows it are one parameter of the scrape route;
  - the model call is a parameter (`model`);
  - `lib/ai.ts` and `lib/scrape.ts` are not part of this model.
- `process.env`, `req.json()` and `NextResponse` are replaced by an API-key parameter, an `Incoming` value and a `Reply` value.
- Logging (`console.log`, `console.error`) is left out.
- At `app/api/scrape/route.ts:23` the route calls `parseHtml` with the fetch result object and no base URL. Only the declared signature of `parseHtml` is modelled, and the scrape route takes fetching and parsing together as a parameter.
- Routes.Generate: request fields are optional strings. A non-string JSON value (a number, an object) in `html` or `requirements` is not modelled.
- Routes.ThrownMessage: a thrown `null` or `undefined` is not modelled. Reading `.message` on it would itself throw inside the `catch`.
- Routes.Truncate: lengths count characters. JavaScript counts UTF-16 code units, so a text with characters outside the Basic Multilingual Plane is capped at a different point.
- Strings.ToLower: lower-cases the ASCII letters, U+0130 (to `i` and U+0307) and U+212A (to `k`), and keeps every other character. JavaScript also lowers other capitals, such as `É`. In the Unicode case mapping tables U+0130 and U+212A are the only characters outside ASCII whose lower case holds an ASCII letter, so the keyword test, which looks only for ASCII keywords, decides as in JavaScript. That claim rests on the tables and is not proved here.
- Sections.ClassKey: for a `class` or `id` with capitals outside ASCII other than those two, the key differs from JavaScript's in those characters. Only its length bound and the absence of ASCII capitals are stated.
- Sections.Preview: when the 150-unit cut falls inside a surrogate pair, JavaScript keeps the pair's first half as a lone surrogate. The model's strings hold whole characters, so it drops that character and the preview is one code unit shorter.
- The import and TypeScript-stripping patterns of `components/generator/LivePreview.tsx:28` and `:35-38` are modelled as match-length functions. Only the length bound and the general properties of the replace pass are proved about them, because they are best-effort patterns, not a grammar.
- The `{/* … */}` removal at `components/generator/LivePreview.tsx:43` is modelled the same way, with no property beyond those of the pass.
- Evaluating the emitted program (react-live's interpreter and its `render`) is left out. Only the program text is modelled.
- The React components, page, tooltip, safelist and the scripts are not part of this model.

## Behaviour worth knowing

- The directive and module-syntax removals are single left-to-right passes. "None survives" does not hold for them. What does hold is that every occurrence present in the input is consumed (Patterns.MatchesAreConsumed).
  - The input `"'use client'use client"` loses its inner directive and becomes `"use client"`, which the pass does not revisit (LivePreview.DirectiveCanSurvive).
  - `x export export default default y` loses its inner `export default ` and becomes `x export default y`. The `^export\s+` pass that follows looks only at line starts, so an `export default ` remains (LivePreview.ExportDefaultCanSurvive).
  - `export export x` loses its first `export ` to the `^export\s+` pass. The scan has moved past the line start, so the result `export x` again starts with `export ` (LivePreview.LineExportCanSurvive).
- The attribute replacements and the fence removal do leave none behind (LivePreview.FixJsx, Fences.FenceRemovalComplete).
- No name is synthesised for an anonymous `export default`. When no declaration is found the program renders `null`.
- A page whose only candidate is a `<section>` with at most 100 code units of HTML yields no sections. The fallbacks look at the list before the size filter, so the `body > div` tier is skipped for it.
- The `srcset` rewrite is not a fixed point: every comma gains a following space (Resolve.SrcsetSpacesCommas).
- The program's wrapper contributes exactly two `render(` calls. The generated source may contain more of its own.

=== FILE: dom.dfy ===
/** The parsed page as an immutable tree. Only what the segmentation reads is
    kept: tag names, attributes, child order and text. How an element prints
    (its `outerHTML`) is left to a function parameter wherever it is needed. */
module Dom {
  import opened Wrappers
  import opened Runs

  datatype Node =
    | Element(tag: string, attrs: map<string, string>, children: seq<Node>)
    | Text(text: string)

  /** `$(el).attr(name)`: the attribute's value, or nothing when absent. */
  function Attr(n: Node, name: string): (r: Option<string>)
    ensures r.Some? <==> n.Element? && name in n.attrs
  {
    if n.Element? && name in n.attrs then Some(n.attrs[name]) else None
  }

  /** `.text()`: the text of every text node below `n`, in document order. */
  function TextOf(n: Node): string
    decreases n
  {
    match n
    case Text(t) => t
    case Element(_, _, cs) => TextOfAll(cs)
  }

  function TextOfAll(ns: seq<Node>): string
    decreases ns
  {
    if |ns| == 0 then "" else TextOf(ns[0]) + TextOfAll(ns[1..])
  }

  lemma {:induction false} TextOfAllConcat(a: seq<Node>, b: seq<Node>)
    ensures TextOfAll(a + b) == TextOfAll(a) + TextOfAll(b)
    decreases |a|
  {
    if |a| == 0 {
      assert a + b == b;
    } else {
      assert (a + b)[1..] == a[1..] + b;
      TextOfAllConcat(a[1..], b);
    }
  }

  // ---------------------------------------------------------------------------
  // selectors

  /** The two selector shapes the segmentation uses: `tag` and `parent > tag`. */
  datatype Selector = Tag(name: string) | Child(parent: string, name: string)

  predicate Selects(sel: Selector, tag: string, parentTag: string) {
    match sel
    case Tag(t) => tag == t
    case Child(p, t) => tag == t && parentTag == p
  }

  /** The elements of the subtree `n` that `sel` matches, in document order;
      `parentTag` is the tag of `n`'s parent ("" at the top of the document). */
  function Select(n: Node, sel: Selector, parentTag: string): (r: seq<Node>)
    ensures forall k | 0 <= k < |r| :: r[k].Element? && r[k].tag == sel.name
    decreases n
  {
    match n
    case Text(_) => []
    case Element(tag, _, cs) => (if Selects(sel, tag, parentTag) then [n] else []) + SelectAll(cs, sel, tag)
  }

  /** `$(selector)` over a forest: the matches in document order. */
  function SelectAll(ns: seq<Node>, sel: Selector, parentTag: string): (r: seq<Node>)
    ensures forall k | 0 <= k < |r| :: r[k].Element? && r[k].tag == sel.name
    decreases ns
  {
    if |ns| == 0 then [] else Select(ns[0], sel, parentTag) + SelectAll(ns[1..], sel, parentTag)
  }

  /** An element together with the tag of its parent. */
  datatype Placed = Placed(node: Node, parentTag: string)

  /** Every element of the subtree `n` with its parent's tag, in document
      order: an element comes before its descendants, and siblings in order. */
  function Elements(n: Node, parentTag: string): (r: seq<Placed>)
    ensures forall k | 0 <= k < |r| :: r[k].node.Element?
    decreases n
  {
    match n
    case Text(_) => []
    case Element(tag, _, cs) => [Placed(n, parentTag)] + ElementsAll(cs, tag)
  }

  function ElementsAll(ns: seq<Node>, parentTag: string): (r: seq<Placed>)
    ensures forall k | 0 <= k < |r| :: r[k].node.Element?
    decreases ns
  {
    if |ns| == 0 then [] else Elements(ns[0], parentTag) + ElementsAll(ns[1..], parentTag)
  }

  /** Whether `sel` matches a placed element. */
  function Matching(sel: Selector): Placed -> bool {
    (p: Placed) => p.node.Element? && Selects(sel, p.node.tag, p.parentTag)
  }

  function NodesOf(ps: seq<Placed>): (r: seq<Node>)
    ensures |r| == |ps| && forall k | 0 <= k < |ps| :: r[k] == ps[k].node
  {
    seq(|ps|, k requires 0 <= k < |ps| => ps[k].node)
  }

  lemma NodesOfConcat(a: seq<Placed>, b: seq<Placed>)
    ensures NodesOf(a + b) == NodesOf(a) + NodesOf(b)
  {
  }

  /** Selection is the list of all elements filtered by the selector: every
      match is found, nothing else is, and in document order. */
  lemma {:induction false} SelectIsFilter(n: Node, sel: Selector, parentTag: string)
    ensures Select(n, sel, parentTag) == NodesOf(Filter(Elements(n, parentTag), Matching(sel)))
    decreases n, 1
  {
    if n.Element? {
      var cs := ElementsAll(n.children, n.tag);
      SelectAllIsFilter(n.children, sel, n.tag);
      FilterConcat([Placed(n, parentTag)], cs, Matching(sel));
      assert Filter([Placed(n, parentTag)], Matching(sel)) ==
        if Selects(sel, n.tag, parentTag) then [Placed(n, parentTag)] else [];
      NodesOfConcat(Filter([Placed(n, parentTag)], Matching(sel)), Filter(cs, Matching(sel)));
    }
  }

  lemma {:induction false} SelectAllIsFilter(ns: seq<Node>, sel: Selector, parentTag: string)
    ensures SelectAll(ns, sel, parentTag) == NodesOf(Filter(ElementsAll(ns, parentTag), Matching(sel)))
    decreases ns, 0
  {
    if |ns| > 0 {
      var a := Elements(ns[0], parentTag);
      var b := ElementsAll(ns[1..], parentTag);
      SelectIsFilter(ns[0], sel, parentTag);
      SelectAllIsFilter(ns[1..], sel, parentTag);
      FilterConcat(a, b, Matching(sel));
      NodesOfConcat(Filter(a, Matching(sel)), Filter(b, Matching(sel)));
    }
  }

  lemma {:induction false} SelectedArePlaced(ns: seq<Node>, sel: Selector, parentTag: string, x: Node)
    requires x in SelectAll(ns, sel, parentTag)
    ensures exists q :: Placed(x, q) in ElementsAll(ns, parentTag) && x.Element? && Selects(sel, x.tag, q)
  {
    var es := ElementsAll(ns, parentTag);
    SelectAllIsFilter(ns, sel, parentTag);
    FilterMembers(es, Matching(sel));
    var f := Filter(es, Matching(sel));
    var k :| 0 <= k < |f| && NodesOf(f)[k] == x;
    assert f[k] in es && Matching(sel)(f[k]);
    assert Placed(x, f[k].parentTag) == f[k];
  }

  lemma {:induction false} PlacedAreSelected(ns: seq<Node>, sel: Selector, parentTag: string, x: Node, q: string)
    requires Placed(x, q) in ElementsAll(ns, parentTag) && x.Element? && Selects(sel, x.tag, q)
    ensures x in SelectAll(ns, sel, parentTag)
  {
    var es := ElementsAll(ns, parentTag);
    SelectAllIsFilter(ns, sel, parentTag);
    FilterMembers(es, Matching(sel));
    var f := Filter(es, Matching(sel));
    assert Matching(sel)(Placed(x, q));
    var k :| 0 <= k < |f| && f[k] == Placed(x, q);
    assert NodesOf(f)[k] == x;
  }

  /** The same, element by element: `x` is selected exactly when it occurs in
      the forest, under a parent whose tag the selector accepts, with the tag
      the selector names. */
  lemma {:induction false} SelectAllMembers(ns: seq<Node>, sel: Selector, parentTag: string, x: Node)
    ensures x in SelectAll(ns, sel, parentTag) <==>
      exists q :: Placed(x, q) in ElementsAll(ns, parentTag) && x.Element? && Selects(sel, x.tag, q)
  {
    if x in SelectAll(ns, sel, parentTag) {
      SelectedArePlaced(ns, sel, parentTag, x);
    }
    if exists q :: Placed(x, q) in ElementsAll(ns, parentTag) && x.Element? && Selects(sel, x.tag, q) {
      var q :| Placed(x, q) in ElementsAll(ns, parentTag) && x.Element? && Selects(sel, x.tag, q);
      PlacedAreSelected(ns, sel, parentTag, x, q);
    }
  }

  // ---------------------------------------------------------------------------
  // shape

  /** The tree with every attribute dropped: tags, nesting and text only. */
  function Shape(n: Node): Node
    decreases n
  {
    match n
    case Text(t) => n
    case Element(tag, _, cs) => Element(tag, map[], ShapeAll(cs))
  }

  function ShapeAll(ns: seq<Node>): (r: seq<Node>)
    ensures |r| == |ns|
    decreases ns
  {
    if |ns| == 0 then [] else [Shape(ns[0])] + ShapeAll(ns[1..])
  }

  // ---------------------------------------------------------------------------
  // cleaning: `$('script').remove()` and the same for style, noscript, iframe

  const RemovedTags: set<string> := {"script", "style", "noscript", "iframe"}

  predicate Removed(n: Node) {
    n.Element? && n.tag in RemovedTags
  }

  /** `n` with every removed element below it dropped, subtree and all. */
  function Clean(n: Node): (r: Node)
    ensures r.Element? <==> n.Element?
    ensures n.Element? ==> r.tag == n.tag && r.attrs == n.attrs
    decreases n
  {
    match n
    case Text(_) => n
    case Element(tag, attrs, cs) => Element(tag, attrs, CleanAll(cs))
  }

  /** A forest with its removed elements dropped and the rest cleaned. */
  function CleanAll(ns: seq<Node>): (r: seq<Node>)
    ensures |r| <= |ns|
    ensures forall k | 0 <= k < |r| :: !Removed(r[k])
    decreases ns
  {
    if |ns| == 0 then []
    else (if Removed(ns[0]) then [] else [Clean(ns[0])]) + CleanAll(ns[1..])
  }

  predicate Kept(n: Node) {
    !Removed(n)
  }

  /** Each tree of a forest cleaned on its own. */
  function CleanEach(ns: seq<Node>): (r: seq<Node>)
    ensures |r| == |ns| && forall k | 0 <= k < |ns| :: r[k] == Clean(ns[k])
  {
    seq(|ns|, k requires 0 <= k < |ns| => Clean(ns[k]))
  }

  /** Cleaning a forest keeps exactly the trees that are not removed, in
      order, each cleaned. */
  lemma {:induction false} CleanAllFilters(ns: seq<Node>)
    ensures CleanAll(ns) == CleanEach(Filter(ns, Kept))
    decreases |ns|
  {
    if |ns| > 0 {
      CleanAllFilters(ns[1..]);
      var f := Filter(ns[1..], Kept);
      if Kept(ns[0]) {
        assert Filter(ns, Kept) == [ns[0]] + f;
        assert CleanAll(ns) == [Clean(ns[0])] + CleanAll(ns[1..]);
        CleanEachCons(ns[0], f);
      } else {
        assert Filter(ns, Kept) == f;
        assert CleanAll(ns) == CleanAll(ns[1..]);
      }
    }
  }

  lemma {:induction false} CleanEachCons(n: Node, ns: seq<Node>)
    ensures CleanEach([n] + ns) == [Clean(n)] + CleanEach(ns)
  {
  }

  /** No removed element anywhere in the subtree. */
  predicate Untouched(n: Node)
    decreases n
  {
    match n
    case Text(_) => true
    case Element(tag, _, cs) => tag !in RemovedTags && AllUntouched(cs)
  }

  predicate AllUntouched(ns: seq<Node>)
    decreases ns
  {
    |ns| == 0 || (Untouched(ns[0]) && AllUntouched(ns[1..]))
  }

  /** A tree with nothing to remove comes out of cleaning as it went in. */
  lemma {:induction false} CleanUntouched(n: Node)
    requires Untouched(n)
    ensures Clean(n) == n
    decreases n, 1
  {
    if n.Element? {
      CleanAllUntouched(n.children);
    }
  }

  lemma {:induction false} CleanAllUntouched(ns: seq<Node>)
    requires AllUntouched(ns)
    ensures CleanAll(ns) == ns
    decreases ns, 0
  {
    if |ns| > 0 {
      CleanUntouched(ns[0]);
      CleanAllUntouched(ns[1..]);
      assert ns == [ns[0]] + ns[1..];
    }
  }

  /** After cleaning, a removed tag is selected nowhere. */
  lemma {:induction false} CleanLeavesNone(n: Node, t: string, parentTag: string)
    requires t in RemovedTags && !Removed(n)
    ensures Select(Clean(n), Tag(t), parentTag) == []
    decreases n, 1
  {
    if n.Element? {
      CleanAllLeavesNone(n.children, t, n.tag);
    }
  }

  lemma {:induction false} CleanAllLeavesNone(ns: seq<Node>, t: string, parentTag: string)
    requires t in RemovedTags
    ensures SelectAll(CleanAll(ns), Tag(t), parentTag) == []
    decreases ns, 0
  {
    if |ns| > 0 {
      var rest := CleanAll(ns[1..]);
      CleanAllLeavesNone(ns[1..], t, parentTag);
      if Removed(ns[0]) {
        assert CleanAll(ns) == rest;
      } else {
        CleanLeavesNone(ns[0], t, parentTag);
        assert CleanAll(ns) == [Clean(ns[0])] + rest;
        assert CleanAll(ns)[1..] == rest;
      }
    }
  }

  /** Cleaning a cleaned tree changes nothing. */
  lemma {:induction false} CleanIdempotent(n: Node)
    ensures Clean(Clean(n)) == Clean(n)
    decreases n, 1
  {
    if n.Element? {
      CleanAllIdempotent(n.children);
    }
  }

  lemma {:induction false} CleanAllIdempotent(ns: seq<Node>)
    ensures CleanAll(CleanAll(ns)) == CleanAll(ns)
    decreases ns, 0
  {
    if |ns| > 0 {
      var rest := CleanAll(ns[1..]);
      CleanAllIdempotent(ns[1..]);
      if Removed(ns[0]) {
        assert CleanAll(ns) == rest;
      } else {
        CleanIdempotent(ns[0]);
        var c := [Clean(ns[0])] + rest;
        assert CleanAll(ns) == c;
        assert c[1..] == rest && !Removed(c[0]);
        assert CleanAll(c) == [Clean(c[0])] + CleanAll(rest);
      }
    }
  }
}

=== FILE: fences.dfy ===
/** The markdown-fence cleanup both code-generating routes apply to the model's
    answer: every opening fence with a `ts` or `tsx` tag is removed, then every
    remaining run of three backticks, then the surrounding whitespace. */
module Fences {
  import opened Strings
  import opened Patterns

  /** No three consecutive backticks anywhere in `s`. */
  predicate NoFence(s: string) {
    forall k | 0 <= k <= |s| - 3 :: !OccursAt(s, k, "```")
  }

  /** `ms` marks exactly the positions of `s` where three backticks start. */
  predicate FenceTable(ms: seq<nat>, s: string)
    requires |ms| == |s|
  {
    forall k | 0 <= k < |s| :: ms[k] > 0 <==> OccursAt(s, k, "```")
  }

  /** Three backticks at `i`, spelled out character by character. */
  lemma {:induction false} TicksAt(s: string, i: int)
    ensures OccursAt(s, i, "```") <==>
      0 <= i && i + 3 <= |s| && s[i] == '`' && s[i + 1] == '`' && s[i + 2] == '`'
  {
    if 0 <= i && i + 3 <= |s| {
      assert s[i..i + 3] == [s[i], s[i + 1], s[i + 2]];
    }
  }

  /** The first two characters are backticks. */
  predicate TwoTicks(t: string) {
    |t| >= 2 && t[0] == '`' && t[1] == '`'
  }

  /** After a kept backtick at `i - 1` the scan does not remove anything at `i`,
      and what it keeps there is not a second backtick followed by a third. */
  lemma {:induction false} KeptTickNext(ms: seq<nat>, s: string, i: nat)
    requires Fits(ms, s) && FenceTable(ms, s) && 0 < i < |s|
    requires s[i - 1] == '`' && !OccursAt(s, i - 1, "```")
    ensures ms[i] == 0
    ensures s[i] == '`' ==> i + 1 == |s| || (ms[i + 1] == 0 && s[i + 1] != '`')
  {
    TicksAt(s, i - 1);
    TicksAt(s, i);
    if i + 1 < |s| {
      TicksAt(s, i + 1);
    }
  }

  /** One kept character in front of a fence-free rest that does not start
      with two backticks when that character is one. */
  lemma {:induction false} ConsNoFence(c: char, rest: string)
    requires NoFence(rest)
    requires c == '`' ==> !TwoTicks(rest)
    ensures NoFence([c] + rest)
  {
    var out := [c] + rest;
    forall k | 0 <= k <= |out| - 3
      ensures !OccursAt(out, k, "```")
    {
      TicksAt(out, k);
      if k > 0 {
        TicksAt(rest, k - 1);
      }
    }
  }

  /** The removal pass leaves no three backticks, and what it outputs right
      after a kept backtick never starts with two more. */
  lemma {:induction false} FenceScan(ms: seq<nat>, s: string, i: nat)
    requires Fits(ms, s) && FenceTable(ms, s) && i <= |s|
    ensures NoFence(Scan(ms, "", s, i))
    ensures 0 < i && s[i - 1] == '`' && !OccursAt(s, i - 1, "```") ==>
      !TwoTicks(Scan(ms, "", s, i))
    decreases |s| - i
  {
    if i < |s| {
      if ms[i] > 0 {
        FenceScan(ms, s, i + ms[i]);
        assert Scan(ms, "", s, i) == "" + Scan(ms, "", s, i + ms[i]) == Scan(ms, "", s, i + ms[i]);
        if 0 < i && s[i - 1] == '`' {
          TicksAt(s, i - 1);
          TicksAt(s, i);
        }
      } else {
        FenceScan(ms, s, i + 1);
        var rest := Scan(ms, "", s, i + 1);
        assert Scan(ms, "", s, i) == [s[i]] + rest;
        ConsNoFence(s[i], rest);
        if 0 < i && s[i - 1] == '`' && !OccursAt(s, i - 1, "```") {
          KeptTickNext(ms, s, i);
          if s[i] == '`' && i + 1 < |s| {
            assert rest == [s[i + 1]] + Scan(ms, "", s, i + 2);
          }
        }
      }
    }
  }

  /** The pass that removes every three backticks leaves none. */
  lemma {:induction false} FenceRemovalComplete(t: string)
    ensures NoFence(Rewrite(Fence, t))
  {
    var ms := Matches(Fence, t);
    assert FenceTable(ms, t);
    FenceScan(ms, t, 0);
  }

  /** `code.replace(/```tsx?/g, '').replace(/```/g, '').trim()`: no three
      backticks remain, and no whitespace at either end. */
  function CleanFences(code: string): (r: string)
    ensures NoFence(r) && IsTrimmed(r)
  {
    var u := Rewrite(Fence, Rewrite(FenceLang, code));
    FenceRemovalComplete(Rewrite(FenceLang, code));
    TrimKeepsAbsence(u, "```");
    Trim(u)
  }

  /** A fence-free text has no tagged fence either. */
  lemma {:induction false} NoFenceNoMatch(r: string)
    requires NoFence(r)
    ensures forall k | 0 <= k < |r| :: MatchAt(FenceLang, r, k) == 0 && MatchAt(Fence, r, k) == 0
  {
    forall k | 0 <= k < |r|
      ensures MatchAt(FenceLang, r, k) == 0 && MatchAt(Fence, r, k) == 0
    {
      TicksAt(r, k);
      assert !OccursAt(r, k, "```");
      if k + 5 <= |r| {
        var w := r[k..k + 5];
        assert w[0] == r[k] && w[1] == r[k + 1] && w[2] == r[k + 2];
      }
      assert !OccursAt(r, k, "```ts");
    }
  }

  /** Cleaning twice is cleaning once. */
  lemma {:induction false} CleanFencesIdempotent(code: string)
    ensures CleanFences(CleanFences(code)) == CleanFences(code)
  {
    var r := CleanFences(code);
    NoFenceNoMatch(r);
    RewriteNoMatch(FenceLang, r);
    RewriteNoMatch(Fence, r);
    TrimTrimmed(r);
  }

  /** On text without backticks the cleanup is just `trim`. */
  lemma {:induction false} CleanFencesOfPlain(code: string)
    requires '`' !in code
    ensures CleanFences(code) == Trim(code)
  {
    forall k | 0 <= k < |code|
      ensures MatchAt(FenceLang, code, k) == 0 && MatchAt(Fence, code, k) == 0
    {
      TicksAt(code, k);
      if k + 5 <= |code| {
        assert code[k..k + 5][0] == code[k];
      }
    }
    RewriteNoMatch(FenceLang, code);
    RewriteNoMatch(Fence, code);
  }
}

=== FILE: live_preview.dfy ===
/** `transformCode` of the live preview: the fixed sequence of rewrites that turns
    generated component source into something the in-browser interpreter can run,
    the detection of the component to render, and the try/catch program that
    renders it. */
module LivePreview {
  import opened Wrappers
  import opened Strings
  import opened Patterns
  import opened PreviewProgram

  // ---------------------------------------------------------------------------
  // normalisation

  /** Step 1: the `use client` directive, the imports and the export qualifiers. */
  function StripModuleSyntax(s: string): string {
    Rewrite(ExportAtLine, Rewrite(ExportDefault, Rewrite(Import, Rewrite(UseClient, s))))
  }

  /** Step 2: interfaces, type aliases, return types and annotations. */
  function StripTypes(s: string): string {
    Rewrite(Annotation, Rewrite(ReturnType, Rewrite(TypeAlias, Rewrite(Interface, s))))
  }

  /** No whitespace-preceded `name` anywhere in `t`. */
  predicate AttrFree(t: string, name: string) {
    forall k | 0 <= k < |t| :: !SpacedAttr(t, k, name)
  }

  /** A replacement that can neither hold nor start an occurrence of `name`
      behind whitespace: its only whitespace is its first character, and
      `name` does not follow that character. */
  predicate SafeReplacement(rep: string, name: string) {
    && |rep| > |name|
    && IsSpace(rep[0])
    && NoSpace(rep[1..])
    && rep[1..1 + |name|] != name
  }

  lemma AttrReplacementsAreSafe()
    ensures SafeReplacement(Replacement(ClassAttr), "class=")
    ensures SafeReplacement(Replacement(ForAttr), "for=")
    ensures SafeReplacement(Replacement(ForAttr), "class=")
  {
    var c, f := Replacement(ClassAttr), Replacement(ForAttr);
    assert c == " className=" && f == " htmlFor=";
    assert c[1..7][5] != "class="[5];
    assert f[1..5][0] != "for="[0];
    assert f[1..7][0] != "class="[0];
  }

  /** A space-free prefix of the scanned text comes unchanged from the input
      when every replacement starts with whitespace. */
  lemma {:induction false} ScanKeepsPrefix(ms: seq<nat>, rep: string, s: string, i: nat, w: string)
    requires Fits(ms, s) && i <= |s| && |rep| > 0 && IsSpace(rep[0])
    requires NoSpace(w) && w <= Scan(ms, rep, s, i)
    ensures OccursAt(s, i, w)
    decreases |s| - i
  {
    if |w| > 0 {
      var r := Scan(ms, rep, s, i);
      assert !IsSpace(r[0]);
      assert ms[i] == 0;
      assert r == [s[i]] + Scan(ms, rep, s, i + 1);
      ScanKeepsPrefix(ms, rep, s, i + 1, w[1..]);
      assert s[i..i + |w|] == [s[i]] + s[i + 1..i + |w|];
      assert w == [w[0]] + w[1..];
    }
  }

  /** An attribute occurrence past the seam of `a + b` is one of `b`. */
  lemma {:induction false} SpacedAttrRight(a: string, b: string, k: int, name: string)
    requires SpacedAttr(a + b, k, name) && k >= |a|
    ensures SpacedAttr(b, k - |a|, name)
  {
    assert (a + b)[k + 1..k + 1 + |name|] == b[k - |a| + 1..k - |a| + 1 + |name|];
  }

  /** No attribute occurrence starts inside a safe replacement. */
  lemma {:induction false} NoSpacedAttrInReplacement(rep: string, rest: string, k: int, name: string)
    requires SafeReplacement(rep, name) && 0 <= k < |rep|
    ensures !SpacedAttr(rep + rest, k, name)
  {
    var r := rep + rest;
    if k == 0 {
      assert r[1..1 + |name|] == rep[1..1 + |name|];
    } else {
      assert r[k] == rep[1..][k - 1];
    }
  }

  /** One matched step keeps the scanned text free of the attribute. */
  lemma {:induction false} ScanStepMatched(ms: seq<nat>, rep: string, s: string, i: nat, name: string)
    requires Fits(ms, s) && i < |s| && ms[i] > 0 && SafeReplacement(rep, name)
    requires AttrFree(Scan(ms, rep, s, i + ms[i]), name)
    ensures AttrFree(Scan(ms, rep, s, i), name)
  {
    var rest := Scan(ms, rep, s, i + ms[i]);
    var r := Scan(ms, rep, s, i);
    assert r == rep + rest;
    forall k | 0 <= k < |r|
      ensures !SpacedAttr(r, k, name)
    {
      if k < |rep| {
        NoSpacedAttrInReplacement(rep, rest, k, name);
      } else if SpacedAttr(r, k, name) {
        SpacedAttrRight(rep, rest, k, name);
      }
    }
  }

  /** One copied step keeps the scanned text free of the attribute when the
      copied character does not start an occurrence. */
  lemma {:induction false} ScanStepCopied(ms: seq<nat>, rep: string, s: string, i: nat, name: string)
    requires Fits(ms, s) && i < |s| && ms[i] == 0 && !SpacedAttr(s, i, name)
    requires SafeReplacement(rep, name) && NoSpace(name)
    requires AttrFree(Scan(ms, rep, s, i + 1), name)
    ensures AttrFree(Scan(ms, rep, s, i), name)
  {
    var rest := Scan(ms, rep, s, i + 1);
    var r := Scan(ms, rep, s, i);
    assert r == [s[i]] + rest;
    forall k | SpacedAttr(r, k, name)
      ensures (k == 0 && SpacedAttr(s, i, name)) || (k > 0 && SpacedAttr(rest, k - 1, name))
    {
      if k == 0 {
        assert name <= rest;
        ScanKeepsPrefix(ms, rep, s, i + 1, name);
      } else {
        SpacedAttrRight([s[i]], rest, k, name);
      }
    }
  }

  /** A scan whose matches cover every whitespace-preceded `name` of the input,
      and whose replacement is safe, leaves none in its output. */
  lemma {:induction false} ScanLeavesNone(ms: seq<nat>, rep: string, s: string, i: nat, name: string)
    requires Fits(ms, s) && i <= |s| && SafeReplacement(rep, name) && NoSpace(name)
    requires forall k | i <= k < |s| :: SpacedAttr(s, k, name) ==> ms[k] > 0
    ensures AttrFree(Scan(ms, rep, s, i), name)
    decreases |s| - i
  {
    if i < |s| {
      if ms[i] > 0 {
        ScanLeavesNone(ms, rep, s, i + ms[i], name);
        ScanStepMatched(ms, rep, s, i, name);
      } else {
        ScanLeavesNone(ms, rep, s, i + 1, name);
        ScanStepCopied(ms, rep, s, i, name);
      }
    }
  }

  /** Step 3 (attribute part): `class=` and `for=` behind whitespace become
      `className=` and `htmlFor=`, and none survives: the rewritten
      attribute's own occurrences are all replaced, and neither replacement
      creates one. */
  function FixJsx(s: string): (r: string)
    ensures AttrFree(r, "class=") && AttrFree(r, "for=")
  {
    var ms := Matches(ClassAttr, s);
    var t := Rewrite(ClassAttr, s);
    var mt := Matches(ForAttr, t);
    AttrReplacementsAreSafe();
    assert NoSpace("class=") && NoSpace("for=");
    ScanLeavesNone(ms, Replacement(ClassAttr), s, 0, "class=");
    ScanLeavesNone(mt, Replacement(ForAttr), t, 0, "for=");
    ScanLeavesNone(mt, Replacement(ForAttr), t, 0, "class=");
    Rewrite(ForAttr, t)
  }

  /** Source without either HTML attribute spelling passes through unchanged. */
  lemma {:induction false} FixJsxOfPlain(s: string)
    requires AttrFree(s, "class=") && AttrFree(s, "for=")
    ensures FixJsx(s) == s
  {
    RewriteNoMatch(ClassAttr, s);
    RewriteNoMatch(ForAttr, s);
  }

  /** The attribute a JSX rewrite looks for behind whitespace. */
  function AttrName(p: Pattern): string {
    if p == ClassAttr then "class=" else "for="
  }

  /** Attribute matches never overlap, since the attribute name holds no
      whitespace: a match at `k` starts after every earlier match has ended. */
  lemma {:induction false} AttrMatchesApart(p: Pattern, s: string, k: nat)
    requires p == ClassAttr || p == ForAttr
    requires SpacedAttr(s, k, AttrName(p))
    ensures forall j | 0 <= j < k && Matches(p, s)[j] > 0 :: j + Matches(p, s)[j] <= k
  {
    var name := AttrName(p);
    assert NoSpace(name);
    forall j | 0 <= j < k && Matches(p, s)[j] > 0
      ensures j + Matches(p, s)[j] <= k
    {
      assert SpacedAttr(s, j, name);
      forall m | j + 1 <= m < j + 1 + |name|
        ensures !IsSpace(s[m])
      {
        assert s[j + 1..j + 1 + |name|][m - j - 1] == s[m];
      }
    }
  }

  /** Every `class=` (or `for=`) behind whitespace is rewritten: the output
      is what the scan wrote before it, then ` className=` (or ` htmlFor=`),
      then the scan of the rest. */
  lemma {:induction false} AttrReplaced(p: Pattern, s: string, k: nat)
    requires p == ClassAttr || p == ForAttr
    requires SpacedAttr(s, k, AttrName(p))
    ensures var ms := Matches(p, s);
      Visits(ms, s, 0, k) &&
      Rewrite(p, s) == Emitted(ms, Replacement(p), s, 0, k) + Replacement(p) + Scan(ms, Replacement(p), s, k + ms[k])
  {
    var ms := Matches(p, s);
    AttrMatchesApart(p, s, k);
    ReachedUnlessOverlapped(ms, s, 0, k);
    VisitedMatchReplaced(ms, Replacement(p), s, k);
  }

  /** The whole normalisation: steps 1 to 3, the JSX comment removal, `trim`. */
  function Normalize(s: string): (r: string)
    ensures IsTrimmed(r)
  {
    Trim(Rewrite(JsxComment, FixJsx(StripTypes(StripModuleSyntax(s)))))
  }

  // ---------------------------------------------------------------------------
  // component detection

  /** The two declaration shapes searched for: `function Name` and
      `const Name = (`. */
  datatype EntryForm = FunctionDecl | ConstArrow

  /** The name captured by a match of the declaration shape at index `i`. */
  function EntryAt(form: EntryForm, s: string, i: nat): (r: Option<string>)
    requires i <= |s|
    ensures r.Some? ==> IsWord(r.value)
  {
    match form
    case FunctionDecl =>
      if !OccursAt(s, i, "function") then None
      else
        var k1 := Skip(s, i + 8, Space);
        var k2 := Skip(s, k1, Word);
        if k1 == i + 8 || k2 == k1 then None else Some(s[k1..k2])
    case ConstArrow =>
      if !OccursAt(s, i, "const") then None
      else
        var k1 := Skip(s, i + 5, Space);
        var k2 := Skip(s, k1, Word);
        var k3 := Skip(s, k2, Space);
        if k1 == i + 5 || k2 == k1 || k3 == |s| || s[k3] != '=' then None
        else
          var k4 := Skip(s, k3 + 1, Space);
          if k4 == |s| || s[k4] != '(' then None else Some(s[k1..k2])
  }

  /** Every capture in the table is a name. */
  predicate AllNames(es: seq<Option<string>>) {
    forall j | 0 <= j < |es| :: es[j].Some? ==> IsWord(es[j].value)
  }

  /** The capture of the declaration shape at every index of `s`, the end
      included. */
  function Entries(form: EntryForm, s: string): (es: seq<Option<string>>)
    ensures |es| == |s| + 1 && AllNames(es)
    ensures forall j | 0 <= j <= |s| :: es[j] == EntryAt(form, s, j)
  {
    seq(|s| + 1, j requires 0 <= j <= |s| => EntryAt(form, s, j))
  }

  /** `r` is the leftmost capture at or after `i`. */
  ghost predicate LeftmostFrom(es: seq<Option<string>>, i: nat, r: Option<string>)
    requires i <= |es|
  {
    exists j | i <= j < |es| :: es[j] == r && forall j' | i <= j' < j :: es[j'].None?
  }

  /** `String.prototype.match` without the global flag, searching from `i`:
      the leftmost capture, or none when no index matches. */
  function First(es: seq<Option<string>>, i: nat): (r: Option<string>)
    requires i <= |es|
    ensures r.Some? ==> LeftmostFrom(es, i, r)
    ensures r.None? <==> forall j | i <= j < |es| :: es[j].None?
    ensures r.Some? && AllNames(es) ==> IsWord(r.value)
    decreases |es| - i
  {
    if i == |es| then None
    else if es[i].Some? then es[i]
    else First(es, i + 1)
  }

  /** The component to render: the first `function` declaration's name, and
      only when there is none, the first `const Name = (` binding's name. */
  function DetectComponent(s: string): (r: Option<string>)
    ensures var fs, cs := Entries(FunctionDecl, s), Entries(ConstArrow, s);
      && ((exists j | 0 <= j <= |s| :: fs[j].Some?) ==> r.Some? && LeftmostFrom(fs, 0, r))
      && ((forall j | 0 <= j <= |s| :: fs[j].None?) && r.Some? ==> LeftmostFrom(cs, 0, r))
      && (r.None? <==> forall j | 0 <= j <= |s| :: fs[j].None? && cs[j].None?)
      && (r.Some? ==> IsWord(r.value))
  {
    match First(Entries(FunctionDecl, s), 0)
    case Some(name) => Some(name)
    case None => First(Entries(ConstArrow, s), 0)
  }

  /** The live preview's `transformCode`: a missing input is treated as empty;
      the normalised source comes first, the call rendering the detected
      component right after it. */
  function TransformCode(input: Option<string>): (r: string)
    ensures Hosts(r, Normalize(input.GetOr("")))
  {
    ProgramFor(Normalize(input.GetOr("")))
  }

  /** `r` runs `src`: the source right after the `try`, the call rendering the
      component detected in `src` right after the source and a blank line,
      and exactly two `render(` calls besides those of the source. */
  predicate Hosts(r: string, src: string) {
    && OccursAt(r, |TryOpen()|, src)
    && OccursAt(r, |TryOpen()| + |src| + 4, RenderCall(DetectComponent(src)))
    && Count(r, "render(") == Count(src, "render(") + 2
  }

  /** The program for a normalised source and the component detected in it. */
  function ProgramFor(src: string): (r: string)
    ensures Hosts(r, src)
  {
    var entry := DetectComponent(src);
    assert entry.Some? ==> IsWord(entry.value);
    Program(src, entry)
  }

  /** A missing input behaves as the empty string: an empty source and a
      `render(null);` call. */
  lemma NormalizeEmpty()
    ensures Normalize("") == ""
  {
    forall p: Pattern
      ensures Rewrite(p, "") == ""
    {
      RewriteEmpty(p);
    }
    assert Trim("") == "";
  }

  lemma DetectEmpty()
    ensures DetectComponent("") == None
  {
    assert Entries(FunctionDecl, "")[0].None?;
    assert Entries(ConstArrow, "")[0].None?;
  }

  lemma MissingInputRendersNull()
    ensures TransformCode(None) == TransformCode(Some(""))
    ensures Normalize("") == ""
    ensures OccursAt(TransformCode(None), |TryOpen()| + 4, "render(null);")
  {
    NormalizeEmpty();
    DetectEmpty();
    assert RenderCall(None) == "render(null);";
  }

  /** An input in which removing the quoted directive in the middle joins the
      quote before it and the words after it into a new directive. */
  function SplicedDirective(): string {
    "\"" + "'use client'" + "use client\""
  }

  lemma {:induction false} SplicedDirectiveMatches(s: string)
    requires s == SplicedDirective()
    ensures MatchUseClient(s, 0) == 0 && MatchUseClient(s, 1) == 12
    ensures forall k | 13 <= k < |s| :: MatchUseClient(s, k) == 0
    ensures s[0] == '"' && s[13..] == "use client\""
  {
    assert s[1..11] == "'use clien";
    assert s[1] == '\'' && s[2..12] == "use client" && s[12] == '\'' && s[13] == 'u';
    assert Skip(s, 13, Space) == 13;
    assert |s| == 24;
  }

  /** The pass removes the quoted directive only, keeping the quote before it
      and the words after it. */
  lemma {:induction false} SplicedDirectiveRewrite(s: string)
    requires s == SplicedDirective()
    ensures Rewrite(UseClient, s) == [s[0]] + s[13..]
  {
    SplicedDirectiveMatches(s);
    var ms, rep := Matches(UseClient, s), Replacement(UseClient);
    assert ms[0] == 0 && ms[1] == 12 && rep == [];
    assert Scan(ms, rep, s, 0) == [s[0]] + Scan(ms, rep, s, 1);
    assert Scan(ms, rep, s, 1) == Scan(ms, rep, s, 13);
    ScanUnmatched(ms, rep, s, 13, |s|);
    assert s[13..|s|] == s[13..];
  }

  /** A directive at the very start of the text. */
  lemma {:induction false} DirectiveAtStart(r: string)
    requires r == "\"" + "use client\""
    ensures MatchUseClient(r, 0) > 0
  {
    assert r[1..11] == "use client";
    assert Skip(r, 12, Space) == 12;
  }

  /** The rewrites are single left-to-right passes: removing one directive can
      join the text around it into a new one, which survives. */
  lemma DirectiveCanSurvive()
    ensures MatchAt(UseClient, SplicedDirective(), 1) > 0
    ensures Rewrite(UseClient, SplicedDirective()) == "\"" + "use client\""
    ensures MatchAt(UseClient, Rewrite(UseClient, SplicedDirective()), 0) > 0
  {
    var s := SplicedDirective();
    SplicedDirectiveMatches(s);
    SplicedDirectiveRewrite(s);
    DirectiveAtStart(Rewrite(UseClient, s));
  }

  /** Source in which removing an inner `export default ` joins the text
      around it into a new one, away from the start of a line:
      "x export export default default y". */
  function SplicedExport(): string {
    "x " + "export " + "export default " + "default y"
  }

  lemma {:induction false} SplicedExportHead(s: string)
    requires s == SplicedExport()
    ensures forall k | 0 <= k < 9 :: MatchExportDefault(s, k) == 0
    ensures s[..9] == "x export "
  {
    assert s[..9] == "x export ";
    assert s[8] == ' ' && s[9] == 'e';
    assert Skip(s, 8, Space) == 9;
    assert !OccursAt(s, 9, "default") by {
      assert s[9..16][0] != "default"[0];
    }
    forall k | 0 <= k < 9 && k != 2
      ensures !OccursAt(s, k, "export")
    {
      assert s[k] == s[..9][k];
      assert s[k..k + 6][0] == s[k];
    }
  }

  lemma {:induction false} SplicedExportMiddle(s: string)
    requires s == SplicedExport()
    ensures MatchExportDefault(s, 9) == 15
  {
    assert s[9..15] == "export";
    assert s[15] == ' ' && s[16] == 'd';
    assert Skip(s, 15, Space) == 16;
    assert s[16..23] == "default";
    assert s[23] == ' ' && s[24] == 'd';
    assert Skip(s, 23, Space) == 24;
  }

  lemma {:induction false} SplicedExportTail(s: string)
    requires s == SplicedExport()
    ensures forall k | 24 <= k < |s| :: MatchExportDefault(s, k) == 0
    ensures s[24..] == "default y"
  {
    assert s[24..] == "default y";
    forall k | 24 <= k < |s|
      ensures !OccursAt(s, k, "export")
    {
      if k + 6 <= |s| {
        assert s[k + 1] == s[24..][k + 1 - 24];
        assert s[k..k + 6][1] == s[k + 1];
      }
    }
  }

  /** The pass removes the inner `export default ` only. */
  lemma {:induction false} SplicedExportRewrite(s: string)
    requires s == SplicedExport()
    ensures Rewrite(ExportDefault, s) == "x export " + "default y"
  {
    var ms, rep := Matches(ExportDefault, s), Replacement(ExportDefault);
    SplicedExportHead(s);
    SplicedExportMiddle(s);
    SplicedExportTail(s);
    assert rep == [] && ms[9] == 15;
    ScanUnmatched(ms, rep, s, 0, 9);
    ScanUnmatched(ms, rep, s, 24, |s|);
    assert Scan(ms, rep, s, 9) == Scan(ms, rep, s, 24);
    assert s[0..9] == s[..9] && s[24..|s|] == s[24..];
  }

  /** The `export default ` the splice produces. */
  lemma {:induction false} SplicedExportFound(r: string)
    requires r == "x export " + "default y"
    ensures MatchExportDefault(r, 2) > 0
  {
    assert r[2..8] == "export";
    assert r[8] == ' ' && r[9] == 'd';
    assert Skip(r, 8, Space) == 9;
    assert r[9..16] == "default";
    assert r[16] == ' ' && r[17] == 'y';
    assert Skip(r, 16, Space) == 17;
  }

  /** Text without line breaks. */
  predicate OneLine(s: string) {
    forall k | 0 <= k < |s| :: !IsLineTerminator(s[k])
  }

  /** In one line of text `^export\s+` can match at the start only. */
  lemma {:induction false} LineExportOnlyAtStart(s: string)
    requires OneLine(s)
    ensures forall k | 0 < k < |s| :: MatchAt(ExportAtLine, s, k) == 0
  {
  }

  /** Without a `d` there is no `export default `. */
  lemma {:induction false} ExportDefaultNeedsD(s: string)
    requires forall k | 0 <= k < |s| :: s[k] != 'd'
    ensures forall k | 0 <= k < |s| :: MatchAt(ExportDefault, s, k) == 0
  {
    forall k | 0 <= k < |s|
      ensures MatchExportDefault(s, k) == 0
    {
      if OccursAt(s, k, "export") {
        var k1 := Skip(s, k + 6, Space);
        assert !OccursAt(s, k1, "default") by {
          if k1 + 7 <= |s| {
            assert s[k1..k1 + 7][0] == s[k1];
          }
        }
      }
    }
  }

  /** The `^export\s+` pass leaves one line that does not start with `e`. */
  lemma {:induction false} OneLineUnchanged(r: string)
    requires OneLine(r) && |r| > 0 && r[0] != 'e'
    ensures Rewrite(ExportAtLine, r) == r
  {
    LineExportOnlyAtStart(r);
    assert !OccursAt(r, 0, "export") by {
      if 6 <= |r| {
        assert r[0..6][0] == r[0];
      }
    }
    RewriteNoMatch(ExportAtLine, r);
  }

  lemma {:induction false} SplicedLine(r: string)
    requires r == "x export " + "default y"
    ensures Rewrite(ExportAtLine, r) == r
  {
    assert OneLine(r) && r[0] == 'x';
    OneLineUnchanged(r);
  }

  /** The two module passes in sequence do not remove every `export default `
      either: the splice happens away from the start of a line, where the
      `^export\s+` pass does not look, so both passes leave
      "x export default y". */
  lemma ExportDefaultCanSurvive()
    ensures MatchAt(ExportDefault, SplicedExport(), 9) > 0
    ensures Rewrite(ExportAtLine, Rewrite(ExportDefault, SplicedExport())) == "x export " + "default y"
    ensures MatchAt(ExportDefault, "x export " + "default y", 2) > 0
  {
    SplicedExportMiddle(SplicedExport());
    SplicedExportRewrite(SplicedExport());
    SplicedExportFound("x export " + "default y");
    SplicedLine("x export " + "default y");
  }

  /** `export` twice at the start of a line. */
  function DoubledExport(): string {
    "export " + "export x"
  }

  lemma {:induction false} DoubledNoDefault(s: string)
    requires s == DoubledExport()
    ensures Rewrite(ExportDefault, s) == s
  {
    assert forall k | 0 <= k < |s| :: s[k] != 'd';
    ExportDefaultNeedsD(s);
    RewriteNoMatch(ExportDefault, s);
  }

  lemma {:induction false} LeadingExport(s: string)
    requires |s| >= 8 && s[..6] == "export" && s[6] == ' ' && !IsSpace(s[7])
    ensures MatchExportAtLine(s, 0) == 7
  {
    assert Skip(s, 6, Space) == 7;
  }

  lemma {:induction false} DoubledLinePass(s: string)
    requires s == DoubledExport()
    ensures Rewrite(ExportAtLine, s) == "export x"
  {
    var ms := Matches(ExportAtLine, s);
    assert s[..6] == "export" && s[6] == ' ' && s[7] == 'e';
    LeadingExport(s);
    assert OneLine(s);
    LineExportOnlyAtStart(s);
    ScanUnmatched(ms, "", s, 7, |s|);
    assert s[7..|s|] == "export x";
  }

  /** The `^export\s+` pass removes the first `export ` and, its scan having
      moved past the start of the line, keeps the second: both module passes
      leave "export x", which starts with `export ` again. */
  lemma LineExportCanSurvive()
    ensures MatchAt(ExportAtLine, DoubledExport(), 0) > 0
    ensures Rewrite(ExportAtLine, Rewrite(ExportDefault, DoubledExport())) == "export x"
    ensures MatchAt(ExportAtLine, "export x", 0) > 0
  {
    var s, t := DoubledExport(), "export x";
    assert s[..6] == "export" && s[6] == ' ' && s[7] == 'e';
    assert t[..6] == "export" && t[6] == ' ' && t[7] == 'x';
    LeadingExport(s);
    DoubledNoDefault(s);
    DoubledLinePass(s);
    LeadingExport(t);
  }
}

=== FILE: parse.dfy ===
/** `parseHtml`: resolve references, drop scripts and styles, then gather
    candidate sections tier by tier, numbering each one from a running
    counter, and finally keep only the ones with enough HTML. The document is
    the parsed tree's top-level nodes; printing an element is a parameter. */
module Parse {
  import opened Wrappers
  import opened Strings
  import opened Dom
  import opened Resolve
  import opened Sections
  import opened Runs

  /** The tiers of the heuristic, each with its id prefix and default name. */
  datatype Tier = SectionTier | HeaderTier | FooterTier | MainDivTier | BodyDivTier {

    function Prefix(): (p: string)
      ensures |p| > 0 && p[|p| - 1] == '-'
    {
      match this
      case SectionTier => "section-"
      case HeaderTier => "header-"
      case FooterTier => "footer-"
      case MainDivTier => "main-div-"
      case BodyDivTier => "body-div-"
    }

    function DefaultName(): string {
      match this
      case SectionTier => "Section"
      case HeaderTier => "Header"
      case FooterTier => "Footer"
      case MainDivTier => "Content Block"
      case BodyDivTier => "Content Block"
    }
  }

  /** The list being built and `sectionCount`. */
  datatype Tally = Tally(sections: seq<Section>, count: nat)

  /** How a tier turns an element and the counter's value into a section. */
  type Maker = (Node, nat) -> Section

  function MakerOf(tier: Tier, outer: Node -> string): Maker {
    (el: Node, n: nat) => Process(el, tier.Prefix() + NatToString(n), tier.DefaultName(), outer)
  }

  /** One maker per tier. */
  datatype Makers = Makers(section: Maker, header: Maker, footer: Maker, mainDiv: Maker, bodyDiv: Maker)

  /** The makers `parseHtml` uses: `processElement` with each tier's label. */
  function MakersOf(outer: Node -> string): Makers {
    Makers(MakerOf(SectionTier, outer), MakerOf(HeaderTier, outer), MakerOf(FooterTier, outer),
           MakerOf(MainDivTier, outer), MakerOf(BodyDivTier, outer))
  }

  /** `sections.push(processElement(..., sectionCount++, ...))`. */
  function Push(t: Tally, el: Node, mk: Maker): (r: Tally)
    ensures r.count == t.count + 1 && |r.sections| == |t.sections| + 1
  {
    Tally(t.sections + [mk(el, t.count)], t.count + 1)
  }

  /** `sections.unshift(processElement(..., sectionCount++, ...))`. */
  function Unshift(t: Tally, el: Node, mk: Maker): (r: Tally)
    ensures r.count == t.count + 1 && |r.sections| == |t.sections| + 1
  {
    Tally([mk(el, t.count)] + t.sections, t.count + 1)
  }

  /** `$(sel).each(el => push(...))`. */
  function PushAll(t: Tally, els: seq<Node>, mk: Maker): (r: Tally)
    decreases |els|
  {
    if |els| == 0 then t else PushAll(Push(t, els[0], mk), els[1..], mk)
  }

  /** `$(sel).each(el => unshift(...))`. */
  function UnshiftAll(t: Tally, els: seq<Node>, mk: Maker): (r: Tally)
    decreases |els|
  {
    if |els| == 0 then t else UnshiftAll(Unshift(t, els[0], mk), els[1..], mk)
  }

  /** `$(sel).each(el => { if (keep(el)) push(...) })`. */
  function PushKept(t: Tally, els: seq<Node>, keep: Node -> bool, mk: Maker): (r: Tally)
    decreases |els|
  {
    if |els| == 0 then t
    else if keep(els[0]) then PushKept(Push(t, els[0], mk), els[1..], keep, mk)
    else PushKept(t, els[1..], keep, mk)
  }

  /** A trimmed text longer than `min` UTF-16 code units: the fallback tiers' test. */
  predicate HasText(el: Node, min: nat) {
    Utf16Length(Trim(TextOf(el))) > min
  }

  // ---------------------------------------------------------------------------
  // reference definitions of the tiers

  /** The sections of a tier, numbered from `start` on, in element order. */
  function Numbered(els: seq<Node>, start: nat, mk: Maker): (r: seq<Section>)
    ensures |r| == |els|
  {
    seq(|els|, k requires 0 <= k < |els| => mk(els[k], start + k))
  }

  /** Numbering the first element, then the rest from the next number on. */
  lemma {:induction false} NumberedStep(els: seq<Node>, start: nat, mk: Maker)
    requires |els| > 0
    ensures Numbered(els, start, mk) == [mk(els[0], start)] + Numbered(els[1..], start + 1, mk)
  {
    var r := Numbered(els, start, mk);
    var q := Numbered(els[1..], start + 1, mk);
    forall k | 1 <= k < |els|
      ensures r[k] == q[k - 1]
    {
      assert start + k == start + 1 + (k - 1);
    }
  }

  /** The push loop appends the tier's numbered sections. */
  lemma {:induction false} PushAllAppends(t: Tally, els: seq<Node>, mk: Maker)
    ensures PushAll(t, els, mk) == Tally(t.sections + Numbered(els, t.count, mk), t.count + |els|)
    decreases |els|
  {
    if |els| > 0 {
      var t1 := Push(t, els[0], mk);
      PushAllAppends(t1, els[1..], mk);
      NumberedStep(els, t.count, mk);
      assert t1.sections + Numbered(els[1..], t1.count, mk) ==
        t.sections + Numbered(els, t.count, mk);
    }
  }

  /** The unshift loop puts the tier's numbered sections in front, last
      element first. */
  lemma {:induction false} UnshiftAllPrepends(t: Tally, els: seq<Node>, mk: Maker)
    ensures UnshiftAll(t, els, mk) == Tally(Reverse(Numbered(els, t.count, mk)) + t.sections, t.count + |els|)
    decreases |els|
  {
    if |els| > 0 {
      var t1 := Unshift(t, els[0], mk);
      UnshiftAllPrepends(t1, els[1..], mk);
      NumberedStep(els, t.count, mk);
      var n := Numbered(els, t.count, mk);
      var m := Numbered(els[1..], t1.count, mk);
      assert n[1..] == m;
      assert Reverse(n) == Reverse(m) + [n[0]];
      assert t1.sections == [n[0]] + t.sections;
      assert Reverse(m) + t1.sections == Reverse(n) + t.sections;
    }
  }

  /** The guarded push loop is the push loop over the elements that pass. */
  lemma {:induction false} PushKeptFilters(t: Tally, els: seq<Node>, keep: Node -> bool, mk: Maker)
    ensures PushKept(t, els, keep, mk) == PushAll(t, Filter(els, keep), mk)
    decreases |els|
  {
    if |els| > 0 {
      var w := Filter(els[1..], keep);
      if keep(els[0]) {
        PushKeptFilters(Push(t, els[0], mk), els[1..], keep, mk);
        assert Filter(els, keep) == [els[0]] + w;
        assert Filter(els, keep)[1..] == w;
      } else {
        PushKeptFilters(t, els[1..], keep, mk);
        assert Filter(els, keep) == w;
      }
    }
  }

  // ---------------------------------------------------------------------------
  // the tiers together

  /** The `main > div` test: more than 50 code units of trimmed text. */
  predicate MainKeeps(el: Node) {
    HasText(el, 50)
  }

  /** The `body > div` test: more than 100 code units of trimmed text. */
  predicate BodyKeeps(el: Node) {
    HasText(el, 100)
  }

  /** The elements each tier looks at, in document order. */
  datatype Candidates = Candidates(
    sections: seq<Node>, headers: seq<Node>, footers: seq<Node>,
    mainDivs: seq<Node>, bodyDivs: seq<Node>)

  /** `$('section')`, `$('header')`, `$('footer')`, `$('main > div')` and
      `$('body > div')` over the document. */
  function CandidatesOf(doc: seq<Node>): Candidates {
    Candidates(
      SelectAll(doc, Tag("section"), ""), SelectAll(doc, Tag("header"), ""),
      SelectAll(doc, Tag("footer"), ""),
      SelectAll(doc, Child("main", "div"), ""), SelectAll(doc, Child("body", "div"), ""))
  }

  /** The three structural tiers as the loops run them. */
  function StructuralTally(c: Candidates, m: Makers): Tally {
    var t1 := PushAll(Tally([], 0), c.sections, m.section);
    var t2 := UnshiftAll(t1, c.headers, m.header);
    PushAll(t2, c.footers, m.footer)
  }

  /** The two fallback tiers, each run only when its guard holds. */
  function Fallbacks(t: Tally, c: Candidates, m: Makers): Tally {
    var t4 := if |t.sections| < 3 then PushKept(t, c.mainDivs, MainKeeps, m.mainDiv) else t;
    if |t4.sections| == 0 then PushKept(t4, c.bodyDivs, BodyKeeps, m.bodyDiv) else t4
  }

  /** All five tiers. */
  function Gather(c: Candidates, m: Makers): Tally {
    Fallbacks(StructuralTally(c, m), c, m)
  }

  /** The reference layout of the structural tiers: headers (last first),
      then sections, then footers, each numbered in the order the loops
      visit them. */
  function Structural(c: Candidates, m: Makers): seq<Section> {
    Reverse(Numbered(c.headers, |c.sections|, m.header)) +
    Numbered(c.sections, 0, m.section) +
    Numbered(c.footers, |c.sections| + |c.headers|, m.footer)
  }

  /** The `main > div` blocks with enough text, numbered from `start`. */
  function MainBlocks(c: Candidates, start: nat, m: Makers): seq<Section> {
    Numbered(Filter(c.mainDivs, MainKeeps), start, m.mainDiv)
  }

  /** The `body > div` blocks with enough text, numbered from 0. */
  function BodyBlocks(c: Candidates, m: Makers): seq<Section> {
    Numbered(Filter(c.bodyDivs, BodyKeeps), 0, m.bodyDiv)
  }

  /** The reference definition of all five tiers: the structural layout,
      extended by the `main > div` blocks below three sections, or else
      replaced by the `body > div` blocks when it is still empty. */
  function Layout(c: Candidates, m: Makers): seq<Section> {
    var s := Structural(c, m);
    var main := MainBlocks(c, |s|, m);
    if |s| >= 3 then s else if |s + main| > 0 then s + main else BodyBlocks(c, m)
  }

  /** An unshift loop followed by a push loop. */
  lemma {:induction false} UnshiftThenPush(t: Tally, hs: seq<Node>, fs: seq<Node>, mkH: Maker, mkF: Maker)
    ensures var r := PushAll(UnshiftAll(t, hs, mkH), fs, mkF);
      r.sections == Reverse(Numbered(hs, t.count, mkH)) + t.sections + Numbered(fs, t.count + |hs|, mkF) &&
      r.count == t.count + |hs| + |fs|
  {
    UnshiftAllPrepends(t, hs, mkH);
    PushAllAppends(UnshiftAll(t, hs, mkH), fs, mkF);
  }

  /** After the structural tiers the list is the reference layout and
      `sectionCount` is its length. */
  lemma {:induction false} StructuralShape(c: Candidates, m: Makers)
    ensures StructuralTally(c, m).sections == Structural(c, m)
    ensures StructuralTally(c, m).count == |Structural(c, m)|
  {
    var t0: Tally := Tally([], 0);
    PushAllAppends(t0, c.sections, m.section);
    var t1 := PushAll(t0, c.sections, m.section);
    assert t1 == Tally(Numbered(c.sections, 0, m.section), |c.sections|);
    UnshiftThenPush(t1, c.headers, c.footers, m.header, m.footer);
  }

  /** The `main > div` tier appends the blocks with enough text, numbered
      on from the counter. */
  lemma {:induction false} MainTier(t: Tally, c: Candidates, m: Makers)
    requires t.count == |t.sections|
    ensures var main := MainBlocks(c, |t.sections|, m);
      PushKept(t, c.mainDivs, MainKeeps, m.mainDiv) == Tally(t.sections + main, |t.sections + main|)
  {
    PushKeptFilters(t, c.mainDivs, MainKeeps, m.mainDiv);
    PushAllAppends(t, Filter(c.mainDivs, MainKeeps), m.mainDiv);
  }

  /** On an empty list the `body > div` tier leaves exactly the blocks with
      enough text, numbered from 0. */
  lemma {:induction false} BodyTier(t: Tally, c: Candidates, m: Makers)
    requires t.count == 0 && |t.sections| == 0
    ensures PushKept(t, c.bodyDivs, BodyKeeps, m.bodyDiv) == Tally(BodyBlocks(c, m), |BodyBlocks(c, m)|)
  {
    PushKeptFilters(t, c.bodyDivs, BodyKeeps, m.bodyDiv);
    PushAllAppends(t, Filter(c.bodyDivs, BodyKeeps), m.bodyDiv);
    assert t.sections + BodyBlocks(c, m) == BodyBlocks(c, m);
  }

  /** The gating of the fallback tiers: `main > div` blocks only below three
      sections, `body > div` blocks only when nothing else was found. */
  lemma {:induction false} FallbackShape(t: Tally, c: Candidates, m: Makers)
    requires t.count == |t.sections|
    ensures Fallbacks(t, c, m).count == |Fallbacks(t, c, m).sections|
    ensures |t.sections| >= 3 ==> Fallbacks(t, c, m).sections == t.sections
    ensures var main := MainBlocks(c, |t.sections|, m);
      |t.sections| < 3 && |t.sections + main| > 0 ==> Fallbacks(t, c, m).sections == t.sections + main
    ensures var main := MainBlocks(c, |t.sections|, m);
      |t.sections| < 3 && |t.sections + main| == 0 ==> Fallbacks(t, c, m).sections == BodyBlocks(c, m)
  {
    if |t.sections| < 3 {
      MainTier(t, c, m);
      var t4 := PushKept(t, c.mainDivs, MainKeeps, m.mainDiv);
      if |t4.sections| == 0 {
        BodyTier(t4, c, m);
      }
    }
  }

  /** The loops build the reference layout. */
  lemma {:induction false} GatherLayout(c: Candidates, m: Makers)
    ensures Gather(c, m).sections == Layout(c, m)
    ensures Gather(c, m).count == |Layout(c, m)|
  {
    StructuralShape(c, m);
    FallbackShape(StructuralTally(c, m), c, m);
  }

  // ---------------------------------------------------------------------------
  // ids
  //
  // The facts below are stated for any numbering `num` of sections and any
  // property `ok` of them; the pipeline instantiates them with the number an
  // id ends in and with what `processElement` guarantees.

  /** The number an id ends in. */
  function IdNumber(s: Section): nat {
    LabelNumber(s.id)
  }

  /** What `processElement` guarantees of every section it builds. */
  predicate Made(s: Section) {
    s.kind in SectionTypes && |s.previewText| <= PreviewLength + 3
  }

  /** A maker whose section carries the counter's value as its number and
      satisfies `ok`. */
  ghost predicate Faithful(mk: Maker, num: Section -> nat, ok: Section -> bool) {
    forall el: Node, n: nat :: num(mk(el, n)) == n && ok(mk(el, n))
  }

  ghost predicate AllFaithful(m: Makers, num: Section -> nat, ok: Section -> bool) {
    Faithful(m.section, num, ok) && Faithful(m.header, num, ok) && Faithful(m.footer, num, ok) &&
    Faithful(m.mainDiv, num, ok) && Faithful(m.bodyDiv, num, ok)
  }

  /** Every tier's label ends in `-`, so the counter's value reads back from
      the id, and `processElement` builds a well-formed section. */
  lemma {:induction false} MakerOfFaithful(tier: Tier, outer: Node -> string)
    ensures Faithful(MakerOf(tier, outer), IdNumber, Made)
  {
    var mk := MakerOf(tier, outer);
    forall el: Node, n: nat
      ensures IdNumber(mk(el, n)) == n && Made(mk(el, n))
    {
      LabelNumberOf(tier.Prefix(), n);
    }
  }

  lemma {:induction false} MakersOfFaithful(outer: Node -> string)
    ensures AllFaithful(MakersOf(outer), IdNumber, Made)
  {
    MakerOfFaithful(SectionTier, outer);
    MakerOfFaithful(HeaderTier, outer);
    MakerOfFaithful(FooterTier, outer);
    MakerOfFaithful(MainDivTier, outer);
    MakerOfFaithful(BodyDivTier, outer);
  }

  /** A tier's sections are numbered consecutively from `start`. */
  lemma {:induction false} NumberedFacts(els: seq<Node>, start: nat, mk: Maker, num: Section -> nat, ok: Section -> bool)
    requires Faithful(mk, num, ok)
    ensures Run(Numbered(els, start, mk), start, start + |els|, num, ok)
  {
    var r := Numbered(els, start, mk);
    forall k | 0 <= k < |r|
      ensures num(r[k]) == start + k && ok(r[k])
    {
      assert r[k] == mk(els[k], start + k);
    }
  }

  /** The structural layout numbers its sections from 0 up to its length,
      each number once. */
  lemma {:induction false} StructuralRun(c: Candidates, m: Makers, num: Section -> nat, ok: Section -> bool)
    requires AllFaithful(m, num, ok)
    ensures Run(Structural(c, m), 0, |Structural(c, m)|, num, ok)
  {
    var ns, nh := |c.sections|, |c.headers|;
    var hs, ss, fs := Numbered(c.headers, ns, m.header), Numbered(c.sections, 0, m.section),
                      Numbered(c.footers, ns + nh, m.footer);
    NumberedFacts(c.headers, ns, m.header, num, ok);
    NumberedFacts(c.sections, 0, m.section, num, ok);
    NumberedFacts(c.footers, ns + nh, m.footer, num, ok);
    JoinThree(hs, ss, fs, num, ok);
    RunSame(Reverse(hs) + ss + fs, Structural(c, m), 0, |Structural(c, m)|, num, ok);
  }

  /** After all five tiers the list is a run numbered from 0 up to
      `sectionCount`, which is its length. */
  lemma {:induction false} GatherRun(c: Candidates, m: Makers, num: Section -> nat, ok: Section -> bool)
    requires AllFaithful(m, num, ok)
    ensures Gather(c, m).count == |Gather(c, m).sections|
    ensures Run(Gather(c, m).sections, 0, Gather(c, m).count, num, ok)
  {
    var t := StructuralTally(c, m);
    StructuralShape(c, m);
    StructuralRun(c, m, num, ok);
    FallbackShape(t, c, m);
    var n := |t.sections|;
    var main := MainBlocks(c, n, m);
    NumberedFacts(Filter(c.mainDivs, MainKeeps), n, m.mainDiv, num, ok);
    NumberedFacts(Filter(c.bodyDivs, BodyKeeps), 0, m.bodyDiv, num, ok);
    if n < 3 && |t.sections + main| > 0 {
      JoinRuns(t.sections, main, 0, n, n, n + |main|, 0, n + |main|, num, ok);
    }
  }

  // ---------------------------------------------------------------------------
  // the final filter and the whole pipeline

  /** The final filter's test: more than 100 code units of HTML. */
  predicate Large(s: Section) {
    Utf16Length(s.html) > 100
  }

  /** `parseHtml` on a parsed document: resolve references against `base`,
      remove the script-like elements, gather the tiers, keep the sections
      with more than 100 code units of HTML. */
  function ParseHtml(doc: seq<Node>, base: string, parse: UrlParser, outer: Node -> string): (r: seq<Section>)
    ensures forall k | 0 <= k < |r| :: Utf16Length(r[k].html) > 100
    ensures forall k | 0 <= k < |r| :: r[k].kind in SectionTypes && |r[k].previewText| <= PreviewLength + 3
    ensures forall i, j | 0 <= i < j < |r| :: r[i].id != r[j].id
  {
    var c := CandidatesOf(CleanAll(ResolveAll(doc, base, parse)));
    var m := MakersOf(outer);
    MakersOfFaithful(outer);
    GatherRun(c, m, IdNumber, Made);
    var t := Gather(c, m);
    FilterRun(t.sections, Large, 0, t.count, IdNumber, Made);
    Filter(t.sections, Large)
  }

  /** The document's sections are exactly the sections of the reference
      layout with more than 100 code units of HTML, in layout order. */
  lemma {:induction false} ParseHtmlLayout(doc: seq<Node>, base: string, parse: UrlParser, outer: Node -> string)
    ensures var c := CandidatesOf(CleanAll(ResolveAll(doc, base, parse)));
      ParseHtml(doc, base, parse, outer) == Filter(Layout(c, MakersOf(outer)), Large)
    ensures var c := CandidatesOf(CleanAll(ResolveAll(doc, base, parse)));
      forall x :: x in ParseHtml(doc, base, parse, outer) <==> x in Layout(c, MakersOf(outer)) && Large(x)
  {
    var c := CandidatesOf(CleanAll(ResolveAll(doc, base, parse)));
    GatherLayout(c, MakersOf(outer));
    FilterMembers(Layout(c, MakersOf(outer)), Large);
  }
}

=== FILE: patterns.dfy ===
/** The regular expressions that `transformCode` and the API routes apply with the
    global flag, and the left-to-right "replace every match" pass that
    `String.prototype.replace` performs with them.

    Each pattern is given by its match length at a position (0: no match). Every
    pattern used here resolves its greedy and lazy quantifiers to a single end
    position, so the length is a function of the string and the position. */
module Patterns {
  import opened Wrappers
  import opened Strings

  datatype Pattern =
    | UseClient      // a quoted `use client` directive, optional `;`, trailing whitespace
    | Import         // an `import` statement of any form, optional `;`
    | ExportDefault  // `export`, whitespace, `default`, whitespace
    | ExportAtLine   // `export` and whitespace at the start of a line
    | Interface      // `interface Name {` up to the first `}`, trailing whitespace
    | TypeAlias      // `type Name =` up to the first `;`
    | ReturnType     // `)`, `:`, a type, `{`  (replaced by `) {`)
    | Annotation     // `:` and a type, before one of `= ; , )`
    | ClassAttr      // whitespace and `class=`  (replaced by ` className=`)
    | ForAttr        // whitespace and `for=`    (replaced by ` htmlFor=`)
    | JsxComment     // a brace-wrapped block comment, as JSX writes comments
    | FenceLang      // three backticks and `ts` or `tsx`
    | Fence          // three backticks

  /** What each match is replaced with. */
  function Replacement(p: Pattern): string {
    match p
    case ReturnType => ") {"
    case ClassAttr => " className="
    case ForAttr => " htmlFor="
    case _ => ""
  }

  // ---------------------------------------------------------------------------
  // character classes and runs

  datatype CharClass =
    | Space             // `\s`
    | Word              // `\w`
    | TypeText          // word characters, `.`, `<`, `>`, `[`, `]`, `|`, `&`, whitespace
    | ImportClause      // word characters, whitespace, `{`, `}`, `,`, `*`
    | NotQuote          // anything but `'` and `"`
    | NotChar(c: char)  // anything but `c`

  predicate IsQuote(c: char) {
    c == '"' || c == '\''
  }

  predicate InClass(cls: CharClass, c: char) {
    match cls
    case Space => IsSpace(c)
    case Word => IsWordChar(c)
    case TypeText => IsWordChar(c) || IsSpace(c) || c in ".<>[]|&"
    case ImportClause => IsWordChar(c) || IsSpace(c) || c in "{},*"
    case NotQuote => !IsQuote(c)
    case NotChar(d) => c != d
  }

  /** End of the maximal run of `cls` characters that starts at `i`. */
  function Skip(s: string, i: nat, cls: CharClass): (k: nat)
    requires i <= |s|
    ensures i <= k <= |s|
    ensures forall j | i <= j < k :: InClass(cls, s[j])
    ensures k == |s| || !InClass(cls, s[k])
    decreases |s| - i
  {
    if i < |s| && InClass(cls, s[i]) then Skip(s, i + 1, cls) else i
  }

  // ---------------------------------------------------------------------------
  // match lengths

  function MatchUseClient(s: string, i: nat): (n: nat)
    requires i <= |s|
    ensures n <= |s| - i
  {
    if i + 12 <= |s| && IsQuote(s[i]) && s[i + 1..i + 11] == "use client" && IsQuote(s[i + 11]) then
      var e := if i + 12 < |s| && s[i + 12] == ';' then i + 13 else i + 12;
      Skip(s, e, Space) - i
    else 0
  }

  /** The text between `import` and the opening quote of the module name has
      one of the two forms the pattern admits: whitespace only, or
      whitespace, a clause, whitespace, `from`, whitespace. The caller has
      already ensured it consists of clause characters only. */
  predicate ImportGap(g: string) {
    var e := SpacesBefore(g, 0, |g|);
    && |g| > 0 && IsSpace(g[0])
    && (e == 0 || (e < |g| && e >= 7 && g[e - 4..e] == "from" && IsSpace(g[e - 5])))
  }

  function MatchImport(s: string, i: nat): (n: nat)
    requires i <= |s|
    ensures n <= |s| - i
  {
    if !OccursAt(s, i, "import") then 0
    else
      var j := Skip(s, i + 6, ImportClause);
      if j == |s| || !IsQuote(s[j]) || !ImportGap(s[i + 6..j]) then 0
      else
        var k := Skip(s, j + 1, NotQuote);
        if k == |s| || k == j + 1 then 0
        else
          var e := if k + 1 < |s| && s[k + 1] == ';' then k + 2 else k + 1;
          e - i
  }

  function MatchExportDefault(s: string, i: nat): (n: nat)
    requires i <= |s|
    ensures n <= |s| - i
  {
    if !OccursAt(s, i, "export") then 0
    else
      var k1 := Skip(s, i + 6, Space);
      if k1 == i + 6 || !OccursAt(s, k1, "default") then 0
      else
        var k2 := Skip(s, k1 + 7, Space);
        if k2 == k1 + 7 then 0 else k2 - i
  }

  function MatchExportAtLine(s: string, i: nat): (n: nat)
    requires i <= |s|
    ensures n <= |s| - i
  {
    if !((i == 0 || IsLineTerminator(s[i - 1])) && OccursAt(s, i, "export")) then 0
    else
      var k := Skip(s, i + 6, Space);
      if k == i + 6 then 0 else k - i
  }

  function MatchInterface(s: string, i: nat): (n: nat)
    requires i <= |s|
    ensures n <= |s| - i
  {
    if !OccursAt(s, i, "interface") then 0
    else
      var k1 := Skip(s, i + 9, Space);
      var k2 := Skip(s, k1, Word);
      var k3 := Skip(s, k2, Space);
      if k1 == i + 9 || k2 == k1 || k3 == |s| || s[k3] != '{' then 0
      else
        var k4 := Skip(s, k3 + 1, NotChar('}'));
        if k4 == |s| then 0 else Skip(s, k4 + 1, Space) - i
  }

  function MatchTypeAlias(s: string, i: nat): (n: nat)
    requires i <= |s|
    ensures n <= |s| - i
  {
    if !OccursAt(s, i, "type") then 0
    else
      var k1 := Skip(s, i + 4, Space);
      var k2 := Skip(s, k1, Word);
      var k3 := Skip(s, k2, Space);
      if k1 == i + 4 || k2 == k1 || k3 == |s| || s[k3] != '=' then 0
      else
        var k4 := Skip(s, k3 + 1, NotChar(';'));
        if k4 == |s| then 0 else k4 + 1 - i
  }

  function MatchReturnType(s: string, i: nat): (n: nat)
    requires i <= |s|
    ensures n <= |s| - i
  {
    if i == |s| || s[i] != ')' then 0
    else
      var k1 := Skip(s, i + 1, Space);
      if k1 == |s| || s[k1] != ':' then 0
      else
        var k2 := Skip(s, k1 + 1, TypeText);
        if k2 == k1 + 1 || k2 == |s| || s[k2] != '{' then 0 else k2 + 1 - i
  }

  function MatchAnnotation(s: string, i: nat): (n: nat)
    requires i <= |s|
    ensures n <= |s| - i
  {
    if i == |s| || s[i] != ':' then 0
    else
      var k := Skip(s, i + 1, TypeText);
      if k == i + 1 || k == |s| || s[k] !in "=;,)" then 0 else k - i
  }

  /** Whitespace at `i` followed by the attribute prefix `name`. */
  predicate SpacedAttr(s: string, i: int, name: string) {
    0 <= i < |s| && IsSpace(s[i]) && OccursAt(s, i + 1, name)
  }

  function MatchSpacedAttr(s: string, i: nat, name: string): (n: nat)
    requires i <= |s|
    ensures n <= |s| - i
    ensures n > 0 <==> SpacedAttr(s, i, name)
  {
    if SpacedAttr(s, i, name) then 1 + |name| else 0
  }

  // Index of the `}` that closes a JSX comment whose body starts at `k`: the
  // first star-slash at or after `k` that only whitespace separates from a `}`.
  function CommentClose(s: string, k: nat): (r: Option<nat>)
    requires k <= |s|
    ensures r.Some? ==> k < r.value < |s| && s[r.value] == '}'
    decreases |s| - k
  {
    if k + 2 > |s| then None
    else if s[k..k + 2] == ['*', '/'] && Skip(s, k + 2, Space) < |s| && s[Skip(s, k + 2, Space)] == '}' then
      Some(Skip(s, k + 2, Space))
    else CommentClose(s, k + 1)
  }

  function MatchJsxComment(s: string, i: nat): (n: nat)
    requires i <= |s|
    ensures n <= |s| - i
  {
    if i == |s| || s[i] != '{' then 0
    else
      var k1 := Skip(s, i + 1, Space);
      if !OccursAt(s, k1, ['/', '*']) then 0
      else
        match CommentClose(s, k1 + 2)
        case None => 0
        case Some(m) => m + 1 - i
  }

  function MatchFenceLang(s: string, i: nat): (n: nat)
    requires i <= |s|
    ensures n <= |s| - i
  {
    if !OccursAt(s, i, "```ts") then 0
    else if i + 5 < |s| && s[i + 5] == 'x' then 6
    else 5
  }

  function MatchFence(s: string, i: nat): (n: nat)
    requires i <= |s|
    ensures n <= |s| - i
    ensures n > 0 <==> OccursAt(s, i, "```")
  {
    if OccursAt(s, i, "```") then 3 else 0
  }

  /** Length of the match of `p` that starts at index `i` of `s`, or 0. */
  function MatchAt(p: Pattern, s: string, i: nat): (n: nat)
    requires i <= |s|
    ensures n <= |s| - i
  {
    match p
    case UseClient => MatchUseClient(s, i)
    case Import => MatchImport(s, i)
    case ExportDefault => MatchExportDefault(s, i)
    case ExportAtLine => MatchExportAtLine(s, i)
    case Interface => MatchInterface(s, i)
    case TypeAlias => MatchTypeAlias(s, i)
    case ReturnType => MatchReturnType(s, i)
    case Annotation => MatchAnnotation(s, i)
    case ClassAttr => MatchSpacedAttr(s, i, "class=")
    case ForAttr => MatchSpacedAttr(s, i, "for=")
    case JsxComment => MatchJsxComment(s, i)
    case FenceLang => MatchFenceLang(s, i)
    case Fence => MatchFence(s, i)
  }

  // ---------------------------------------------------------------------------
  // global replace

  /** `ms` gives a match length for every position of `s`, none running past
      the end. */
  predicate Fits(ms: seq<nat>, s: string) {
    |ms| == |s| && forall k | 0 <= k < |s| :: ms[k] <= |s| - k
  }

  /** The match length of `p` at every position of `s`. */
  function Matches(p: Pattern, s: string): (ms: seq<nat>)
    ensures Fits(ms, s)
    ensures forall k | 0 <= k < |s| :: ms[k] == MatchAt(p, s, k)
  {
    seq(|s|, k requires 0 <= k < |s| => MatchAt(p, s, k))
  }

  /** The scan of a global replace from index `i` on, given the match length at
      each position: either a match is replaced by `rep` and the scan resumes
      after it, or the character is kept and the scan moves one position on. */
  function Scan(ms: seq<nat>, rep: string, s: string, i: nat): string
    requires Fits(ms, s) && i <= |s|
    decreases |s| - i
  {
    if i == |s| then []
    else if ms[i] > 0 then rep + Scan(ms, rep, s, i + ms[i])
    else [s[i]] + Scan(ms, rep, s, i + 1)
  }

  /** `s.replace(p, Replacement(p))` with the global flag. */
  function Rewrite(p: Pattern, s: string): string {
    Scan(Matches(p, s), Replacement(p), s, 0)
  }

  /** Nothing to replace in the empty text. */
  lemma {:induction false} RewriteEmpty(p: Pattern)
    ensures Rewrite(p, "") == ""
  {
    assert |Matches(p, "")| == 0;
  }

  /** A text in which the pattern matches nowhere comes out unchanged. */
  lemma {:induction false} RewriteNoMatch(p: Pattern, s: string)
    requires forall k | 0 <= k < |s| :: MatchAt(p, s, k) == 0
    ensures Rewrite(p, s) == s
  {
    ScanUnmatched(Matches(p, s), Replacement(p), s, 0, |s|);
    assert s[0..|s|] == s;
  }

  /** The character at `k` lies inside one of the matches the scan from `i`
      replaces. */
  predicate Consumed(ms: seq<nat>, s: string, i: nat, k: int)
    requires Fits(ms, s) && i <= |s|
    decreases |s| - i
  {
    if i == |s| then false
    else if ms[i] > 0 then i <= k < i + ms[i] || Consumed(ms, s, i + ms[i], k)
    else Consumed(ms, s, i + 1, k)
  }

  /** Every match present in the input is replaced: no position where the
      pattern matches survives the scan as a kept character. */
  lemma {:induction false} MatchesAreConsumed(ms: seq<nat>, s: string, i: nat, k: nat)
    requires Fits(ms, s) && i <= k < |s| && ms[k] > 0
    ensures Consumed(ms, s, i, k)
    decreases |s| - i
  {
    if ms[i] > 0 {
      if k >= i + ms[i] {
        MatchesAreConsumed(ms, s, i + ms[i], k);
      }
    } else {
      MatchesAreConsumed(ms, s, i + 1, k);
    }
  }

  /** The scan from `i` stops at `k`: `k` is `i`, or a position the scan
      reaches after keeping characters and replacing matches. */
  predicate Visits(ms: seq<nat>, s: string, i: nat, k: nat)
    requires Fits(ms, s) && i <= |s|
    decreases |s| - i
  {
    i == k || (i < k && i < |s| && Visits(ms, s, if ms[i] > 0 then i + ms[i] else i + 1, k))
  }

  /** What the scan from `i` writes before it reaches `k`. */
  function Emitted(ms: seq<nat>, rep: string, s: string, i: nat, k: nat): string
    requires Fits(ms, s) && i <= |s| && Visits(ms, s, i, k)
    decreases |s| - i
  {
    if i == k then []
    else if ms[i] > 0 then rep + Emitted(ms, rep, s, i + ms[i], k)
    else [s[i]] + Emitted(ms, rep, s, i + 1, k)
  }

  /** The output splits at every position the scan visits. */
  lemma {:induction false} ScanThrough(ms: seq<nat>, rep: string, s: string, i: nat, k: nat)
    requires Fits(ms, s) && i <= |s| && Visits(ms, s, i, k)
    ensures k <= |s| && Scan(ms, rep, s, i) == Emitted(ms, rep, s, i, k) + Scan(ms, rep, s, k)
    decreases |s| - i
  {
    if i != k {
      var next := if ms[i] > 0 then i + ms[i] else i + 1;
      var head := if ms[i] > 0 then rep else [s[i]];
      ScanThrough(ms, rep, s, next, k);
      assert Scan(ms, rep, s, i) == head + Scan(ms, rep, s, next);
      assert Emitted(ms, rep, s, i, k) == head + Emitted(ms, rep, s, next, k);
    }
  }

  /** A position that no earlier match runs over is visited. */
  lemma {:induction false} ReachedUnlessOverlapped(ms: seq<nat>, s: string, i: nat, k: nat)
    requires Fits(ms, s) && i <= k <= |s|
    requires forall j | i <= j < k && ms[j] > 0 :: j + ms[j] <= k
    ensures Visits(ms, s, i, k)
    decreases k - i
  {
    if i < k {
      ReachedUnlessOverlapped(ms, s, if ms[i] > 0 then i + ms[i] else i + 1, k);
    }
  }

  /** A match the scan reaches appears in the output as the replacement. */
  lemma {:induction false} VisitedMatchReplaced(ms: seq<nat>, rep: string, s: string, k: nat)
    requires Fits(ms, s) && k < |s| && ms[k] > 0 && Visits(ms, s, 0, k)
    ensures Scan(ms, rep, s, 0) == Emitted(ms, rep, s, 0, k) + rep + Scan(ms, rep, s, k + ms[k])
  {
    ScanThrough(ms, rep, s, 0, k);
  }

  /** A stretch in which the pattern matches nowhere is copied unchanged. */
  lemma {:induction false} ScanUnmatched(ms: seq<nat>, rep: string, s: string, i: nat, j: nat)
    requires Fits(ms, s) && i <= j <= |s|
    requires forall k | i <= k < j :: ms[k] == 0
    ensures Scan(ms, rep, s, i) == s[i..j] + Scan(ms, rep, s, j)
    decreases j - i
  {
    if i < j {
      ScanUnmatched(ms, rep, s, i + 1, j);
      ConsSlice(s, i, j, Scan(ms, rep, s, j));
    }
  }

  /** Removal never lengthens the text. */
  lemma {:induction false} RemovalShortens(ms: seq<nat>, rep: string, s: string, i: nat)
    requires Fits(ms, s) && i <= |s| && |rep| == 0
    ensures |Scan(ms, rep, s, i)| <= |s| - i
    decreases |s| - i
  {
    if i < |s| {
      if ms[i] > 0 {
        RemovalShortens(ms, rep, s, i + ms[i]);
      } else {
        RemovalShortens(ms, rep, s, i + 1);
      }
    }
  }
}

=== FILE: preview_program.dfy ===
/** The program the live preview hands to its in-browser interpreter: the
    normalised source, one call rendering the detected component, and a
    `catch` branch that renders the error message instead. */
module PreviewProgram {
  import opened Wrappers
  import opened Strings

  function TryOpen(): string {
    "\ntry {\n  "
  }

  /** The blank line between the source and the call. */
  function Gap(): string {
    "\n\n  "
  }

  /** The `catch` branch, cut where the character set changes so that its
      single `render(` can be counted piece by piece. */
  function CatchOpen(): string {
    "\n} catch (e) {\n  "
  }

  function CatchStyle(): string {
    "\n    <pre style={{ " + "color: \"red\", " + "whiteSpace: \"pre-wrap\" }}>" + "\n      {String"
  }

  function CatchClose(): string {
    "(e)}\n    </pre>\n  );\n}\n"
  }

  function RenderCall(entry: Option<string>): string {
    match entry
    case Some(name) => "render(<" + name + " />);"
    case None => "render(null);"
  }

  /** The program handed to the interpreter: the source, then the single render
      call, inside a `try` whose `catch` renders the error instead. */
  function Program(src: string, entry: Option<string>): (r: string)
    requires entry.Some? ==> IsWord(entry.value)
    ensures OccursAt(r, |TryOpen()|, src)
    ensures OccursAt(r, |TryOpen()| + |src| + 4, RenderCall(entry))
    ensures Count(r, "render(") == Count(src, "render(") + 2
  {
    var cb := CatchOpen() + "render(" + CatchStyle() + CatchClose();
    var r := TryOpen() + src + Gap() + RenderCall(entry) + cb;
    Placement(TryOpen(), src, Gap(), RenderCall(entry), cb);
    ProgramCounts(src, entry, cb);
    r
  }

  /** The count of calls in the assembled program. */
  lemma {:induction false} ProgramCounts(src: string, entry: Option<string>, cb: string)
    requires entry.Some? ==> IsWord(entry.value)
    requires cb == CatchOpen() + "render(" + CatchStyle() + CatchClose()
    ensures Count(TryOpen() + src + Gap() + RenderCall(entry) + cb, "render(") ==
      Count(src, "render(") + 2
  {
    var t, g, call := TryOpen(), Gap(), RenderCall(entry);
    TryOpenLacksRender();
    GapLacksRender();
    RenderCallRendersOnce(entry);
    CatchBlockRendersOnce();
    assert Framing(t, g, call, cb);
    RenderCounts(t, src, g, call, cb);
  }

  /** Where the source and the call sit in the assembled program. */
  lemma {:induction false} Placement(t: string, src: string, g: string, call: string, cb: string)
    ensures OccursAt(t + src + g + call + cb, |t|, src)
    ensures OccursAt(t + src + g + call + cb, |t| + |src| + |g|, call)
  {
    var r := t + src + g + call + cb;
    assert r[|t|..|t| + |src|] == src;
    assert r[|t| + |src| + |g|..|t| + |src| + |g| + |call|] == call;
  }

  /** A character that cannot take part in a `render(` occurrence. */
  predicate OutsideRender(c: char) {
    c != 'r' && c != 'e' && c != 'n' && c != 'd' && c != '('
  }

  /** Calls add up across a seam that no occurrence can straddle. */
  lemma {:induction false} RenderSeam(a: string, b: string)
    requires |a| == 0 || |b| == 0 || OutsideRender(a[|a| - 1]) || OutsideRender(b[0])
    ensures Count(a + b, "render(") == Count(a, "render(") + Count(b, "render(")
  {
    CountConcat(a, b, "render(");
  }

  /** A `render(` followed by text without a `(` holds exactly one call. */
  lemma {:induction false} CountRenderOnce(rest: string)
    requires '(' !in rest
    ensures Count("render(" + rest, "render(") == 1
  {
    var p := "render(";
    var t := "ender(" + rest;
    assert (p + rest)[1..] == t;
    forall k | 0 <= k <= |t| - |p|
      ensures !OccursAt(t, k, p)
    {
      assert t[k..k + |p|][6] == t[k + 6] == rest[k];
    }
    CountZero(t, p);
  }

  lemma TryOpenLacksRender()
    ensures Count(TryOpen(), "render(") == 0
    ensures |TryOpen()| > 0 && OutsideRender(TryOpen()[|TryOpen()| - 1])
  {
    CountAbsent(TryOpen(), "render(", '(');
  }

  lemma GapLacksRender()
    ensures Count(Gap(), "render(") == 0
    ensures |Gap()| > 0 && OutsideRender(Gap()[0]) && OutsideRender(Gap()[|Gap()| - 1])
  {
    CountAbsent(Gap(), "render(", '(');
  }

  lemma CatchOpenLacksRender()
    ensures Count(CatchOpen(), "render(") == 0
    ensures |CatchOpen()| > 0 && OutsideRender(CatchOpen()[0]) &&
      OutsideRender(CatchOpen()[|CatchOpen()| - 1])
  {
    CountAbsent(CatchOpen(), "render(", 'r');
  }

  lemma CatchStyleLacksParen()
    ensures '(' !in CatchStyle()
  {
    var a, b, c, d := "\n    <pre style={{ ", "color: \"red\", ", "whiteSpace: \"pre-wrap\" }}>", "\n      {String";
    assert CatchStyle() == a + b + c + d;
    assert '(' !in a;
    assert '(' !in b;
    assert '(' !in c;
    assert '(' !in d;
  }

  lemma CatchStyleEnds()
    ensures |CatchStyle()| > 0 && CatchStyle()[0] == '\n' && CatchStyle()[|CatchStyle()| - 1] == 'g'
  {
    var st := CatchStyle();
    var a, bc, d := "\n    <pre style={{ ", "color: \"red\", " + "whiteSpace: \"pre-wrap\" }}>", "\n      {String";
    assert st == a + bc + d;
    assert st[0] == a[0];
    assert st[|st| - 1] == d[|d| - 1];
  }

  lemma CatchStyleLacksRender()
    ensures Count(CatchStyle(), "render(") == 0
    ensures |CatchStyle()| > 0 && OutsideRender(CatchStyle()[0]) &&
      OutsideRender(CatchStyle()[|CatchStyle()| - 1])
  {
    CatchStyleLacksParen();
    CatchStyleEnds();
    CountAbsent(CatchStyle(), "render(", '(');
  }

  lemma CatchCloseLacksRender()
    ensures Count(CatchClose(), "render(") == 0
  {
    CountAbsent(CatchClose(), "render(", 'n');
  }

  /** A single call between call-free text, with seams no occurrence can
      straddle, is counted once. */
  lemma {:induction false} CountOneCall(a: string, b: string, c: string)
    requires Count(a, "render(") == 0 && Count(b, "render(") == 0 && Count(c, "render(") == 0
    requires |a| == 0 || OutsideRender(a[|a| - 1])
    requires |b| > 0 && OutsideRender(b[0])
    requires |c| == 0 || OutsideRender(b[|b| - 1]) || OutsideRender(c[0])
    ensures Count(a + "render(" + b + c, "render(") == 1
  {
    var p := "render(";
    CountRenderOnce("");
    assert p + "" == p;
    RenderSeam(a, p);
    RenderSeam(b, c);
    assert a + p + b + c == (a + p) + (b + c);
    assert (b + c)[0] == b[0];
    RenderSeam(a + p, b + c);
  }

  /** The `catch` branch holds exactly one call. */
  lemma CatchBlockRendersOnce()
    ensures Count(CatchOpen() + "render(" + CatchStyle() + CatchClose(), "render(") == 1
  {
    CatchOpenLacksRender();
    CatchStyleLacksRender();
    CatchCloseLacksRender();
    CountOneCall(CatchOpen(), CatchStyle(), CatchClose());
  }

  lemma {:induction false} RenderCallRendersOnce(entry: Option<string>)
    requires entry.Some? ==> IsWord(entry.value)
    ensures Count(RenderCall(entry), "render(") == 1
    ensures |RenderCall(entry)| > 0 && RenderCall(entry)[|RenderCall(entry)| - 1] == ';'
  {
    var rest := RenderCall(entry)[7..];
    assert RenderCall(entry) == "render(" + rest;
    assert '(' !in rest;
    CountRenderOnce(rest);
  }

  /** The text around the source: no call before it, none between it and
      the call, one call in the call itself and one in the `catch` branch,
      with seams no occurrence can straddle. */
  predicate Framing(t: string, g: string, call: string, cb: string) {
    && Count(t, "render(") == 0 && |t| > 0 && OutsideRender(t[|t| - 1])
    && Count(g, "render(") == 0 && |g| > 0 && OutsideRender(g[0]) && OutsideRender(g[|g| - 1])
    && Count(call, "render(") == 1 && |call| > 0 && OutsideRender(call[|call| - 1])
    && Count(cb, "render(") == 1
  }

  /** The wrapper contributes exactly two `render(` calls of its own: one in
      the `try` branch and one in the `catch` branch. */
  lemma {:induction false} RenderCounts(t: string, src: string, g: string, call: string, cb: string)
    requires Framing(t, g, call, cb)
    ensures Count(t + src + g + call + cb, "render(") == Count(src, "render(") + 2
  {
    RenderSeam(t, src);
    RenderSeam(t + src, g);
    RenderSeam(t + src + g, call);
    RenderSeam(t + src + g + call, cb);
  }
}

=== FILE: resolve.dfy ===
/** The first pass of the page parser: relative image sources, image source
    sets and link targets are made absolute against the page's base URL.
    Resolving a URL is the WHATWG URL parser's job and is a parameter here: it
    answers the serialised absolute URL, or nothing when `new URL(url, base)`
    throws. A failed resolution leaves the attribute as it was. */
module Resolve {
  import opened Wrappers
  import opened Strings
  import opened Dom

  /** `new URL(url, base).toString()`, or `None` when the constructor throws. */
  type UrlParser = (string, string) -> Option<string>

  /** `src && !src.startsWith('http') && !src.startsWith('data:')`. */
  predicate NeedsSrc(v: string) {
    v != "" && !("http" <= v) && !("data:" <= v)
  }

  /** `href && !href.startsWith('http') && !href.startsWith('#') && !href.startsWith('mailto:')`. */
  predicate NeedsHref(v: string) {
    v != "" && !("http" <= v) && !("#" <= v) && !("mailto:" <= v)
  }

  /** The value a guarded attribute ends up with: the resolved URL when the
      guard holds and resolution succeeds, the old value otherwise. */
  function Absolute(v: string, needed: bool, base: string, parse: UrlParser): (r: string)
    ensures !needed ==> r == v
    ensures needed && parse(v, base).None? ==> r == v
    ensures needed && parse(v, base).Some? ==> r == parse(v, base).value
  {
    if needed then parse(v, base).GetOr(v) else v
  }

  /** When every resolved URL starts with "http", resolving a second time leaves
      an image source as the first pass left it. */
  lemma {:induction false} SrcStable(v: string, base: string, parse: UrlParser)
    requires parse(v, base).Some? ==> "http" <= parse(v, base).value
    ensures var once := Absolute(v, NeedsSrc(v), base, parse);
      Absolute(once, NeedsSrc(once), base, parse) == once
  {
  }

  // ---------------------------------------------------------------------------
  // srcset

  /** The URL of a `srcset` part: its first whitespace-separated token. */
  function PartUrl(part: string): string {
    FirstWord(Trim(part))
  }

  /** The descriptor of a `srcset` part: its second token, or "". */
  function PartDescriptor(part: string): string {
    SecondWord(Trim(part))
  }

  /** One comma-separated part of a `srcset`: its URL resolved and followed by
      a space and its descriptor; a part that needs no resolution, or whose
      resolution fails, is kept verbatim. Tokens after the descriptor are
      dropped. */
  function RewritePart(part: string, base: string, parse: UrlParser): (r: string)
    ensures !NeedsSrc(PartUrl(part)) ==> r == part
    ensures parse(PartUrl(part), base).None? ==> r == part
    ensures NeedsSrc(PartUrl(part)) && parse(PartUrl(part), base).Some? ==>
      r == parse(PartUrl(part), base).value + " " + PartDescriptor(part)
  {
    var url := PartUrl(part);
    if NeedsSrc(url) then
      match parse(url, base)
      case Some(u) => u + " " + PartDescriptor(part)
      case None => part
    else part
  }

  function RewriteParts(parts: seq<string>, base: string, parse: UrlParser): (r: seq<string>)
    ensures |r| == |parts|
    ensures forall k | 0 <= k < |r| :: r[k] == RewritePart(parts[k], base, parse)
    decreases |parts|
  {
    if |parts| == 0 then [] else [RewritePart(parts[0], base, parse)] + RewriteParts(parts[1..], base, parse)
  }

  /** `srcset.split(',').map(...).join(', ')`. */
  function RewriteSrcset(srcset: string, base: string, parse: UrlParser): string {
    Join(RewriteParts(Split(srcset, ','), base, parse), ", ")
  }

  /** No URL the parser produces against `base` contains a comma. */
  ghost predicate CommaFreeUrls(base: string, parse: UrlParser) {
    forall u :: parse(u, base).Some? ==> ',' !in parse(u, base).value
  }

  lemma {:induction false} DescriptorCommaFree(part: string)
    requires ',' !in part
    ensures ',' !in PartDescriptor(part)
  {
    var t := Trim(part);
    var i :| OccursAt(part, i, t) && AllSpace(part[..i]) && AllSpace(part[i + |t|..]);
    AbsentFromSlice(part, i, i + |t|, ',');
    SecondWordWithin(t, ',');
  }

  /** A rewritten part has no comma when the resolved URLs have none. */
  lemma {:induction false} PartCommaFree(part: string, base: string, parse: UrlParser)
    requires ',' !in part && CommaFreeUrls(base, parse)
    ensures ',' !in RewritePart(part, base, parse)
  {
    var u := parse(PartUrl(part), base);
    if NeedsSrc(PartUrl(part)) && u.Some? {
      DescriptorCommaFree(part);
      assert ',' !in u.value;
      assert ',' !in " ";
    }
  }

  /** Joining comma-free parts with ", " puts exactly one comma between
      neighbours. */
  lemma {:induction false} JoinCommas(parts: seq<string>)
    requires |parts| > 0
    requires forall k | 0 <= k < |parts| :: ',' !in parts[k]
    ensures Count(Join(parts, ", "), ",") == |parts| - 1
    decreases |parts|
  {
    CountAbsent(parts[0], ",", ',');
    if |parts| > 1 {
      JoinCommas(parts[1..]);
      var rest := Join(parts[1..], ", ");
      assert Join(parts, ", ") == parts[0] + ("," + (" " + rest));
      CountCharConcat(parts[0], "," + (" " + rest), ',');
      CountCharConcat(",", " " + rest, ',');
      CountCharConcat(" ", rest, ',');
    }
  }

  /** The rewrite keeps the number of `srcset` entries, as long as no resolved
      URL brings in a comma of its own. */
  lemma {:induction false} SrcsetKeepsEntries(srcset: string, base: string, parse: UrlParser)
    requires CommaFreeUrls(base, parse)
    ensures |Split(RewriteSrcset(srcset, base, parse), ',')| == |Split(srcset, ',')|
  {
    var parts := Split(srcset, ',');
    var rs := RewriteParts(parts, base, parse);
    forall k | 0 <= k < |rs|
      ensures ',' !in rs[k]
    {
      PartCommaFree(parts[k], base, parse);
    }
    JoinCommas(rs);
    SplitCount(RewriteSrcset(srcset, base, parse), ',');
  }

  /** The rewrite is not a fixed point: even a `srcset` with nothing to
      resolve gets a space after each comma. */
  lemma {:induction false} SrcsetSpacesCommas(base: string, parse: UrlParser)
    ensures RewriteSrcset(",", base, parse) == ", "
  {
    assert ","[1..] == "";
    assert Split(",", ',') == ["", ""];
    assert PartUrl("") == "";
    assert RewriteParts(["", ""], base, parse) == ["", ""];
  }

  // ---------------------------------------------------------------------------
  // elements

  /** `src` resolved when it needs to be; every other attribute as it was. */
  function ResolveSrcAttr(attrs: map<string, string>, base: string, parse: UrlParser): (r: map<string, string>)
    ensures r.Keys == attrs.Keys
    ensures forall k | k in attrs && k != "src" :: r[k] == attrs[k]
    ensures "src" in attrs ==> r["src"] == Absolute(attrs["src"], NeedsSrc(attrs["src"]), base, parse)
  {
    if "src" in attrs then attrs["src" := Absolute(attrs["src"], NeedsSrc(attrs["src"]), base, parse)] else attrs
  }

  /** A non-empty `srcset` rewritten; every other attribute as it was. */
  function ResolveSrcsetAttr(attrs: map<string, string>, base: string, parse: UrlParser): (r: map<string, string>)
    ensures r.Keys == attrs.Keys
    ensures forall k | k in attrs && k != "srcset" :: r[k] == attrs[k]
    ensures "srcset" in attrs && attrs["srcset"] != "" ==>
      r["srcset"] == RewriteSrcset(attrs["srcset"], base, parse)
  {
    if "srcset" in attrs && attrs["srcset"] != "" then attrs["srcset" := RewriteSrcset(attrs["srcset"], base, parse)] else attrs
  }

  /** The attributes of an `img` after the pass: `src` resolved, then a
      non-empty `srcset` rewritten; every other attribute as it was. */
  function ResolveImg(attrs: map<string, string>, base: string, parse: UrlParser): (r: map<string, string>)
    ensures r.Keys == attrs.Keys
    ensures forall k | k in attrs && k != "src" && k != "srcset" :: r[k] == attrs[k]
    ensures "src" in attrs ==> r["src"] == Absolute(attrs["src"], NeedsSrc(attrs["src"]), base, parse)
    ensures "srcset" in attrs && attrs["srcset"] != "" ==>
      r["srcset"] == RewriteSrcset(attrs["srcset"], base, parse)
    ensures "srcset" in attrs && attrs["srcset"] == "" ==> r["srcset"] == ""
  {
    ResolveSrcsetAttr(ResolveSrcAttr(attrs, base, parse), base, parse)
  }

  /** The attributes of an `a` after the pass: `href` resolved, nothing else. */
  function ResolveLink(attrs: map<string, string>, base: string, parse: UrlParser): (r: map<string, string>)
    ensures r.Keys == attrs.Keys
    ensures forall k | k in attrs && k != "href" :: r[k] == attrs[k]
    ensures "href" in attrs ==> r["href"] == Absolute(attrs["href"], NeedsHref(attrs["href"]), base, parse)
  {
    if "href" in attrs then attrs["href" := Absolute(attrs["href"], NeedsHref(attrs["href"]), base, parse)] else attrs
  }

  /** The resolution pass over a subtree: every `img` and every `a` rewritten. */
  function ResolveNode(n: Node, base: string, parse: UrlParser): (r: Node)
    ensures r.Element? <==> n.Element?
    ensures n.Element? ==> r.tag == n.tag
    ensures n.Text? ==> r == n
    ensures n.Element? && n.tag == "img" ==> r.attrs == ResolveImg(n.attrs, base, parse)
    ensures n.Element? && n.tag == "a" ==> r.attrs == ResolveLink(n.attrs, base, parse)
    ensures n.Element? && n.tag != "img" && n.tag != "a" ==> r.attrs == n.attrs
    ensures n.Element? ==> r.children == ResolveAll(n.children, base, parse)
    decreases n
  {
    match n
    case Text(_) => n
    case Element(tag, attrs, cs) =>
      var a := if tag == "img" then ResolveImg(attrs, base, parse)
               else if tag == "a" then ResolveLink(attrs, base, parse)
               else attrs;
      Element(tag, a, ResolveAll(cs, base, parse))
  }

  function ResolveAll(ns: seq<Node>, base: string, parse: UrlParser): (r: seq<Node>)
    ensures |r| == |ns|
    ensures forall k | 0 <= k < |ns| :: r[k] == ResolveNode(ns[k], base, parse)
    decreases ns
  {
    if |ns| == 0 then [] else [ResolveNode(ns[0], base, parse)] + ResolveAll(ns[1..], base, parse)
  }

  /** Resolution only touches attributes: tags, nesting and text stay. */
  lemma {:induction false} ResolveKeepsShape(n: Node, base: string, parse: UrlParser)
    ensures Shape(ResolveNode(n, base, parse)) == Shape(n)
    decreases n, 1
  {
    if n.Element? {
      ResolveAllKeepsShape(n.children, base, parse);
    }
  }

  lemma {:induction false} ResolveAllKeepsShape(ns: seq<Node>, base: string, parse: UrlParser)
    ensures ShapeAll(ResolveAll(ns, base, parse)) == ShapeAll(ns)
    decreases ns, 0
  {
    if |ns| > 0 {
      ResolveKeepsShape(ns[0], base, parse);
      ResolveAllKeepsShape(ns[1..], base, parse);
      assert ResolveAll(ns, base, parse)[1..] == ResolveAll(ns[1..], base, parse);
    }
  }
}

=== FILE: routes.dfy ===
/** The pure parts of the three API route handlers: request validation, the
    size cap on scraped HTML, the prompt text sent to the model, the cleanup of
    the model's answer and the mapping of failures to error replies. The model
    call and the page fetch are parameters: whatever they answer or throw is an
    input here. */
module Routes {
  import opened Wrappers
  import opened Strings
  import opened Fences
  import Sections

  /** What a `catch` clause receives: an `Error` instance, or some other value
      that may or may not carry a string `message` property. */
  datatype Thrown = ErrorObject(message: string) | OtherValue(property: Option<string>)

  /** The JSON body of a reply: generated code, the scraped sections with
      `success: true`, or an error text. */
  datatype Payload =
    | CodeBody(code: string)
    | SectionsBody(url: string, sections: seq<Sections.Section>)
    | ErrorBody(error: string)

  datatype Reply = Reply(status: nat, body: Payload)

  /** The request body as `req.json()` delivers it, or the error it throws. */
  datatype Incoming<T> = Parsed(value: T) | Unreadable(error: Thrown)

  /** What `generateContent(...).response.text()` delivers, or what it throws. */
  datatype ModelOutcome = Answer(text: string) | Failed(error: Thrown)

  /** A string field that is present and non-empty (JavaScript truthiness). */
  predicate Truthy(v: Option<string>) {
    v.Some? && v.value != ""
  }

  // ---------------------------------------------------------------------------
  // app/api/generate

  datatype GenerateRequest = GenerateRequest(html: Option<string>, requirements: Option<string>)

  const MaxHtml: nat := 50000

  /** The HTML actually sent: the first 50 000 characters and an ellipsis when
      longer, the whole text otherwise. */
  function Truncate(html: string): (r: string)
    ensures |r| <= MaxHtml + 3
    ensures |html| <= MaxHtml ==> r == html
    ensures |html| > MaxHtml ==> |r| == MaxHtml + 3 && r[..MaxHtml] == html[..MaxHtml]
    ensures |html| > MaxHtml ==> OccursAt(r, MaxHtml, "...")
  {
    if |html| > MaxHtml then html[..MaxHtml] + "..." else html
  }

  /** Truncating what was already truncated changes nothing: the kept prefix
      is the same 50 000 characters. */
  lemma {:induction false} TruncateIdempotent(html: string)
    ensures Truncate(Truncate(html)) == Truncate(html)
  {
    var t := Truncate(html);
    if |html| > MaxHtml {
      assert t[..MaxHtml] == html[..MaxHtml];
    }
  }

  /** Every character sent is the source character at the same index, up to
      the cap. */
  lemma {:induction false} TruncateKeepsPrefix(html: string, k: nat)
    requires k < |html| && k < MaxHtml
    ensures Truncate(html)[k] == html[k]
  {
    if |html| > MaxHtml {
      assert Truncate(html)[..MaxHtml][k] == html[..MaxHtml][k];
    }
  }

  const HtmlIntro := "\n    Here is the HTML section to convert:\n    "
  const RequirementsLabel := "Additional User Requirements: "

  /** The user message of the generate route. The requirements line is there
      exactly when `requirements` is truthy; nothing else varies. */
  function GenerateMessage(html: string, requirements: Option<string>): (m: string)
    ensures OccursAt(m, |HtmlIntro|, html)
    ensures Truthy(requirements) ==>
      OccursAt(m, |HtmlIntro| + |html| + 6, RequirementsLabel + requirements.value)
    ensures Truthy(requirements) ==>
      |m| == |HtmlIntro| + |html| + 11 + |RequirementsLabel| + |requirements.value|
    ensures !Truthy(requirements) ==> |m| == |HtmlIntro| + |html| + 11
  {
    var line := if Truthy(requirements) then RequirementsLabel + requirements.value else "";
    var m := HtmlIntro + html + "\n\n    " + line + "\n    ";
    assert m[|HtmlIntro|..|HtmlIntro| + |html|] == html;
    assert m[|HtmlIntro| + |html| + 6..|HtmlIntro| + |html| + 6 + |line|] == line;
    m
  }

  /** The requirements line decides the message length, so two messages built
      from the same HTML differ exactly when their requirements lines do. */
  lemma {:induction false} GenerateMessageRequirements(html: string, a: Option<string>, b: Option<string>)
    requires GenerateMessage(html, a) == GenerateMessage(html, b)
    ensures Truthy(a) <==> Truthy(b)
    ensures Truthy(a) ==> a.value == b.value
  {
    var m := GenerateMessage(html, a);
    var at := |HtmlIntro| + |html| + 6;
    if Truthy(a) && Truthy(b) {
      assert m[at + |RequirementsLabel|..at + |RequirementsLabel| + |a.value|] == a.value;
      assert m[at + |RequirementsLabel|..at + |RequirementsLabel| + |b.value|] == b.value;
    }
  }

  /** The error text of the generate and scrape routes' `catch`: an `Error`'s
      own message, `fallback` for any other thrown value. */
  function FailureText(e: Thrown, fallback: string): (m: string)
    ensures e.ErrorObject? ==> m == e.message
    ensures e.OtherValue? ==> m == fallback
  {
    match e
    case ErrorObject(msg) => msg
    case OtherValue(_) => fallback
  }

  const GenerateDefault := "Failed to generate component"

  /** POST /api/generate: `html` is required, then the API key; the model sees
      the capped HTML and any requirements; its answer is returned without
      fences; anything thrown becomes a 500. */
  function Generate(request: Incoming<GenerateRequest>, apiKey: Option<string>,
                    model: string -> ModelOutcome): (r: Reply)
    ensures r.status == 400 <==> request.Parsed? && !Truthy(request.value.html)
    ensures r.status == 200 <==>
      request.Parsed? && Truthy(request.value.html) && Truthy(apiKey) &&
      model(GenerateMessage(Truncate(request.value.html.value), request.value.requirements)).Answer?
    ensures r.status == 200 || r.status == 400 || r.status == 500
    ensures r.status == 200 <==> r.body.CodeBody?
    ensures r.body.CodeBody? ==> NoFence(r.body.code) && IsTrimmed(r.body.code)
    ensures request.Unreadable? ==> r.body == ErrorBody(FailureText(request.error, GenerateDefault))
    ensures r.status == 400 ==> r.body == ErrorBody("HTML content is required")
    ensures request.Parsed? && Truthy(request.value.html) && !Truthy(apiKey) ==>
      r == Reply(500, ErrorBody("Google API Key is missing"))
    ensures request.Parsed? && Truthy(request.value.html) && Truthy(apiKey) ==>
      var out := model(GenerateMessage(Truncate(request.value.html.value), request.value.requirements));
      (out.Answer? ==> r.body == CodeBody(CleanFences(out.text))) &&
      (out.Failed? ==> r.body == ErrorBody(FailureText(out.error, GenerateDefault)))
  {
    match request
    case Unreadable(e) => Reply(500, ErrorBody(FailureText(e, GenerateDefault)))
    case Parsed(GenerateRequest(html, requirements)) =>
      if !Truthy(html) then Reply(400, ErrorBody("HTML content is required"))
      else if !Truthy(apiKey) then Reply(500, ErrorBody("Google API Key is missing"))
      else
        match model(GenerateMessage(Truncate(html.value), requirements))
        case Answer(text) => Reply(200, CodeBody(CleanFences(text)))
        case Failed(e) => Reply(500, ErrorBody(FailureText(e, GenerateDefault)))
  }

  /** Whatever the model answers, the generated code is its answer cleaned:
      running the cleanup again on the returned code changes nothing. */
  lemma {:induction false} GenerateReturnsCleanCode(request: Incoming<GenerateRequest>, apiKey: Option<string>,
                                 model: string -> ModelOutcome)
    requires Generate(request, apiKey, model).status == 200
    ensures var code := Generate(request, apiKey, model).body.code;
      CleanFences(code) == code
  {
    var msg := GenerateMessage(Truncate(request.value.html.value), request.value.requirements);
    CleanFencesIdempotent(model(msg).text);
  }

  // ---------------------------------------------------------------------------
  // app/api/iterate

  datatype IterateRequest = IterateRequest(currentCode: Option<string>, instruction: Option<string>)

  const CodeIntro := "\n    EXISTING CODE:\n    "
  const InstructionIntro := "\n\n    USER INSTRUCTION:\n    "

  /** The user message of the iterate route: the current code, then the
      instruction, each after its heading. */
  function IterateMessage(code: string, instruction: string): (m: string)
    ensures OccursAt(m, |CodeIntro|, code)
    ensures OccursAt(m, |CodeIntro| + |code| + |InstructionIntro|, instruction)
    ensures |m| == |CodeIntro| + |code| + |InstructionIntro| + |instruction| + 5
  {
    var m := CodeIntro + code + InstructionIntro + instruction + "\n    ";
    assert m[|CodeIntro|..|CodeIntro| + |code|] == code;
    var at := |CodeIntro| + |code| + |InstructionIntro|;
    assert m[at..at + |instruction|] == instruction;
    m
  }

  /** The two replacement texts, kept in short parts so that each fact about
      their characters is checked on a short literal. */
  const NotEnabled0 := "Google Generative AI"
  const NotEnabled1 := " API is not enabled "
  const NotEnabled2 := "for your project. Pl"
  const NotEnabled3 := "ease enable it in Go"
  const NotEnabled4 := "ogle Cloud Console."
  const NotEnabled := NotEnabled0 + NotEnabled1 + NotEnabled2 + NotEnabled3 + NotEnabled4
  const InvalidKey0 := "Invalid Google API K"
  const InvalidKey1 := "ey. Please check you"
  const InvalidKey2 := "r .env.local file."
  const InvalidKey := InvalidKey0 + InvalidKey1 + InvalidKey2
  const IterateDefault := "Failed to iterate component"

  /** `error.message || 'Failed to iterate component'`. */
  function ThrownMessage(e: Thrown): (m: string)
    ensures m != ""
    ensures e.ErrorObject? && e.message != "" ==> m == e.message
    ensures e.OtherValue? && e.property.Some? && e.property.value != "" ==> m == e.property.value
    ensures ((e.ErrorObject? && e.message == "") ||
             (e.OtherValue? && (e.property.None? || e.property == Some("")))) ==> m == IterateDefault
  {
    match e
    case ErrorObject(msg) => if msg == "" then IterateDefault else msg
    case OtherValue(Some(msg)) => if msg == "" then IterateDefault else msg
    case OtherValue(None) => IterateDefault
  }

  /** The iterate route's failure text: a not-found 404 first, then a key
      problem, else the message itself. */
  function MapFailure(message: string): (m: string)
  {
    if Includes(message, "404") && Includes(message, "not found") then NotEnabled
    else if Includes(message, "API_KEY") then InvalidKey
    else message
  }

  /** The mapping stated with occurrences: which of the three texts comes out
      depends only on which of the markers the message contains, with the
      404 case taking priority. */
  lemma {:induction false} MapFailureCases(message: string)
    ensures Contains(message, "404") && Contains(message, "not found") ==>
      MapFailure(message) == NotEnabled
    ensures !(Contains(message, "404") && Contains(message, "not found")) && Contains(message, "API_KEY") ==>
      MapFailure(message) == InvalidKey
    ensures !(Contains(message, "404") && Contains(message, "not found")) && !Contains(message, "API_KEY") ==>
      MapFailure(message) == message
  {
    IncludesIff(message, "404");
    IncludesIff(message, "not found");
    IncludesIff(message, "API_KEY");
  }

  /** Lacks a character of "404" and one of "API_KEY". */
  predicate Unmarked(t: string) {
    '4' !in t && '_' !in t
  }

  /** A text without a '4' and without an '_' holds none of the markers and
      maps to itself. */
  lemma {:induction false} MapFailureUnmarked(t: string)
    requires Unmarked(t)
    ensures MapFailure(t) == t
  {
    IncludesAbsent(t, "404", '4');
    IncludesAbsent(t, "API_KEY", '_');
  }

  lemma {:induction false} UnmarkedJoin(a: string, b: string)
    requires Unmarked(a) && Unmarked(b)
    ensures Unmarked(a + b)
  {
  }

  lemma NotEnabled0Unmarked() ensures Unmarked(NotEnabled0) {}
  lemma NotEnabled1Unmarked() ensures Unmarked(NotEnabled1) {}
  lemma NotEnabled2Unmarked() ensures Unmarked(NotEnabled2) {}
  lemma NotEnabled3Unmarked() ensures Unmarked(NotEnabled3) {}
  lemma NotEnabled4Unmarked() ensures Unmarked(NotEnabled4) {}
  lemma InvalidKey0Unmarked() ensures Unmarked(InvalidKey0) {}
  lemma InvalidKey1Unmarked() ensures Unmarked(InvalidKey1) {}
  lemma InvalidKey2Unmarked() ensures Unmarked(InvalidKey2) {}

  lemma NotEnabledUnmarked()
    ensures Unmarked(NotEnabled)
  {
    NotEnabled0Unmarked(); NotEnabled1Unmarked(); NotEnabled2Unmarked(); NotEnabled3Unmarked(); NotEnabled4Unmarked();
    UnmarkedJoin(NotEnabled0, NotEnabled1);
    UnmarkedJoin(NotEnabled0 + NotEnabled1, NotEnabled2);
    UnmarkedJoin(NotEnabled0 + NotEnabled1 + NotEnabled2, NotEnabled3);
    UnmarkedJoin(NotEnabled0 + NotEnabled1 + NotEnabled2 + NotEnabled3, NotEnabled4);
  }

  lemma InvalidKeyUnmarked()
    ensures Unmarked(InvalidKey)
  {
    InvalidKey0Unmarked(); InvalidKey1Unmarked(); InvalidKey2Unmarked();
    UnmarkedJoin(InvalidKey0, InvalidKey1);
    UnmarkedJoin(InvalidKey0 + InvalidKey1, InvalidKey2);
  }

  /** The replacement texts contain none of the markers, so mapping a mapped
      text again leaves it as it is. */
  lemma {:induction false} MapFailureStable(message: string)
    ensures MapFailure(MapFailure(message)) == MapFailure(message)
  {
    var m := MapFailure(message);
    if m == NotEnabled {
      NotEnabledUnmarked();
      MapFailureUnmarked(m);
    } else if m == InvalidKey {
      InvalidKeyUnmarked();
      MapFailureUnmarked(m);
    }
  }

  /** The iterate route's error reply text for a thrown value. */
  function IterateFailure(e: Thrown): (m: string)
    ensures m != ""
    ensures m == NotEnabled || m == InvalidKey || m == ThrownMessage(e)
  {
    MapFailure(ThrownMessage(e))
  }

  /** POST /api/iterate: both fields are required, then the API key; the
      model's answer is returned without fences; anything thrown becomes a
      500 with the mapped text. */
  function Iterate(request: Incoming<IterateRequest>, apiKey: Option<string>,
                   model: string -> ModelOutcome): (r: Reply)
    ensures r.status == 400 <==>
      request.Parsed? && (!Truthy(request.value.currentCode) || !Truthy(request.value.instruction))
    ensures r.status == 200 <==>
      request.Parsed? && Truthy(request.value.currentCode) && Truthy(request.value.instruction) &&
      Truthy(apiKey) &&
      model(IterateMessage(request.value.currentCode.value, request.value.instruction.value)).Answer?
    ensures r.status == 200 || r.status == 400 || r.status == 500
    ensures r.status == 200 <==> r.body.CodeBody?
    ensures r.body.CodeBody? ==> NoFence(r.body.code) && IsTrimmed(r.body.code)
    ensures r.body.ErrorBody? ==> r.body.error != ""
    ensures request.Unreadable? ==> r.body == ErrorBody(IterateFailure(request.error))
    ensures r.status == 400 ==> r.body == ErrorBody("Current code and instruction are required")
    ensures (request.Parsed? && Truthy(request.value.currentCode) && Truthy(request.value.instruction) &&
             !Truthy(apiKey)) ==> r == Reply(500, ErrorBody("Google API Key is missing"))
    ensures (request.Parsed? && Truthy(request.value.currentCode) && Truthy(request.value.instruction) &&
             Truthy(apiKey)) ==>
      var out := model(IterateMessage(request.value.currentCode.value, request.value.instruction.value));
      (out.Answer? ==> r.body == CodeBody(CleanFences(out.text))) &&
      (out.Failed? ==> r.body == ErrorBody(IterateFailure(out.error)))
  {
    match request
    case Unreadable(e) => Reply(500, ErrorBody(IterateFailure(e)))
    case Parsed(IterateRequest(code, instruction)) =>
      if !Truthy(code) || !Truthy(instruction) then
        Reply(400, ErrorBody("Current code and instruction are required"))
      else if !Truthy(apiKey) then Reply(500, ErrorBody("Google API Key is missing"))
      else
        match model(IterateMessage(code.value, instruction.value))
        case Answer(text) => Reply(200, CodeBody(CleanFences(text)))
        case Failed(e) => Reply(500, ErrorBody(IterateFailure(e)))
  }

  /** A model failure whose message names both a 404 and "not found" is
      reported as the API not being enabled, even when it also names the key. */
  lemma {:induction false} IterateReportsDisabledApi(request: IterateRequest, apiKey: Option<string>,
                                  model: string -> ModelOutcome, message: string)
    requires Truthy(request.currentCode) && Truthy(request.instruction) && Truthy(apiKey)
    requires model(IterateMessage(request.currentCode.value, request.instruction.value)) ==
      Failed(ErrorObject(message))
    requires Contains(message, "404") && Contains(message, "not found")
    ensures Iterate(Parsed(request), apiKey, model) == Reply(500, ErrorBody(NotEnabled))
  {
    MapFailureCases(message);
  }

  // ---------------------------------------------------------------------------
  // app/api/scrape

  /** The scrape route's checks on `url`, in order. `None` means the URL goes
      on to the scraper; otherwise the 400 reply. */
  function ScrapeGuard(url: Option<string>): (r: Option<Reply>)
    ensures r.None? <==>
      Truthy(url) && "http" <= url.value &&
      !Includes(url.value, "localhost") && !Includes(url.value, "127.0.0.1")
    ensures r.Some? ==> r.value.status == 400
    ensures !Truthy(url) || !("http" <= url.value) ==> r == Some(Reply(400, ErrorBody("Invalid URL")))
    ensures (Truthy(url) && "http" <= url.value &&
             (Includes(url.value, "localhost") || Includes(url.value, "127.0.0.1"))) ==>
      r == Some(Reply(400, ErrorBody("Localhost URLs are not allowed")))
  {
    if !Truthy(url) || !("http" <= url.value) then Some(Reply(400, ErrorBody("Invalid URL")))
    else if Includes(url.value, "localhost") || Includes(url.value, "127.0.0.1") then
      Some(Reply(400, ErrorBody("Localhost URLs are not allowed")))
    else None
  }

  /** No URL that mentions the loopback host anywhere reaches the scraper; an
      http URL that does is told so specifically. */
  lemma {:induction false} ScrapeRefusesLoopback(url: string)
    requires Contains(url, "localhost") || Contains(url, "127.0.0.1")
    ensures ScrapeGuard(Some(url)).Some?
    ensures "http" <= url ==>
      ScrapeGuard(Some(url)) == Some(Reply(400, ErrorBody("Localhost URLs are not allowed")))
  {
    IncludesIff(url, "localhost");
    IncludesIff(url, "127.0.0.1");
  }

  /** Every URL the guard lets through begins with "http" and contains
      neither loopback name. */
  lemma {:induction false} ScrapeAdmits(url: Option<string>)
    requires ScrapeGuard(url).None?
    ensures url.Some? && OccursAt(url.value, 0, "http")
    ensures !Contains(url.value, "localhost") && !Contains(url.value, "127.0.0.1")
  {
    OccursAtStart(url.value, "http");
    IncludesIff(url.value, "localhost");
    IncludesIff(url.value, "127.0.0.1");
  }

  /** What fetching the page and parsing it deliver, or what either throws. */
  datatype ScrapeOutcome = Scraped(sections: seq<Sections.Section>) | ScrapeFailed(error: Thrown)

  const ScrapeDefault := "Failed to scrape"

  /** POST /api/scrape: the guard first; an admitted URL is fetched and its
      page parsed, and the sections come back with the URL; anything thrown
      becomes a 500. */
  function Scrape(request: Incoming<Option<string>>, pipeline: string -> ScrapeOutcome): (r: Reply)
    ensures r.status == 400 <==> request.Parsed? && ScrapeGuard(request.value).Some?
    ensures r.status == 200 <==>
      request.Parsed? && ScrapeGuard(request.value).None? && pipeline(request.value.value).Scraped?
    ensures r.status == 200 || r.status == 400 || r.status == 500
    ensures r.status == 200 <==> r.body.SectionsBody?
    ensures r.body.SectionsBody? ==>
      request.Parsed? && request.value == Some(r.body.url) &&
      r.body.sections == pipeline(r.body.url).sections
    ensures r.body.SectionsBody? ==>
      OccursAt(r.body.url, 0, "http") &&
      !Contains(r.body.url, "localhost") && !Contains(r.body.url, "127.0.0.1")
    ensures request.Unreadable? ==> r == Reply(500, ErrorBody(FailureText(request.error, ScrapeDefault)))
    ensures request.Parsed? && ScrapeGuard(request.value).Some? ==> r == ScrapeGuard(request.value).value
    ensures (request.Parsed? && ScrapeGuard(request.value).None? &&
             pipeline(request.value.value).ScrapeFailed?) ==>
      r == Reply(500, ErrorBody(FailureText(pipeline(request.value.value).error, ScrapeDefault)))
  {
    match request
    case Unreadable(e) => Reply(500, ErrorBody(FailureText(e, ScrapeDefault)))
    case Parsed(url) =>
      match ScrapeGuard(url)
      case Some(refusal) => refusal
      case None =>
        ScrapeAdmits(url);
        match pipeline(url.value)
        case Scraped(sections) => Reply(200, SectionsBody(url.value, sections))
        case ScrapeFailed(e) => Reply(500, ErrorBody(FailureText(e, ScrapeDefault)))
  }
}

=== FILE: runs.dfy ===
/** Reversal, filtering, and runs: sequences whose elements each carry a
    number from a range, no number twice, and each satisfy a property. The
    tiers of `parseHtml` produce such runs, one per tier, from a shared
    counter. */
module Runs {

  /** `s` back to front: the order a series of `unshift` calls leaves its
      elements in. */
  function Reverse<T>(s: seq<T>): (r: seq<T>)
    ensures |r| == |s|
  {
    if |s| == 0 then [] else Reverse(s[1..]) + [s[0]]
  }

  /** Every element of `s` satisfies `ok`, its number lies in `[lo, hi)`, and
      no two elements share a number. */
  predicate Run<T>(s: seq<T>, lo: nat, hi: nat, num: T -> nat, ok: T -> bool) {
    (forall k | 0 <= k < |s| :: ok(s[k]) && lo <= num(s[k]) < hi) &&
    (forall i, j | 0 <= i < j < |s| :: num(s[i]) != num(s[j]))
  }

  /** A run under another name is still a run. */
  lemma RunSame<T>(a: seq<T>, b: seq<T>, lo: nat, hi: nat, num: T -> nat, ok: T -> bool)
    requires a == b && Run(a, lo, hi, num, ok)
    ensures Run(b, lo, hi, num, ok)
  {
  }

  /** Element `k` of the reversal is element `|s| - 1 - k` of `s`. */
  lemma {:induction false} ReverseAt<T>(s: seq<T>)
    ensures forall k | 0 <= k < |s| :: Reverse(s)[k] == s[|s| - 1 - k]
    decreases |s|
  {
    if |s| > 0 {
      ReverseAt(s[1..]);
      var r := Reverse(s);
      assert r == Reverse(s[1..]) + [s[0]];
      forall k | 0 <= k < |s|
        ensures r[k] == s[|s| - 1 - k]
      {
        if k < |s| - 1 {
          assert r[k] == Reverse(s[1..])[k];
        }
      }
    }
  }

  /** Reversing a run leaves it a run. */
  lemma {:induction false} ReverseRun<T>(s: seq<T>, lo: nat, hi: nat, num: T -> nat, ok: T -> bool)
    requires Run(s, lo, hi, num, ok)
    ensures Run(Reverse(s), lo, hi, num, ok)
  {
    ReverseAt(s);
    var r := Reverse(s);
    forall i, j | 0 <= i < j < |r|
      ensures num(r[i]) != num(r[j])
    {
      assert r[i] == s[|s| - 1 - i] && r[j] == s[|s| - 1 - j];
    }
    forall k | 0 <= k < |r|
      ensures ok(r[k]) && lo <= num(r[k]) < hi
    {
      assert r[k] == s[|s| - 1 - k];
    }
  }

  /** Two runs whose number ranges do not overlap join into one run. */
  lemma {:induction false} JoinRuns<T>(a: seq<T>, b: seq<T>, alo: nat, ahi: nat, blo: nat, bhi: nat,
                                       lo: nat, hi: nat, num: T -> nat, ok: T -> bool)
    requires Run(a, alo, ahi, num, ok) && Run(b, blo, bhi, num, ok)
    requires ahi <= blo || bhi <= alo
    requires lo <= alo && lo <= blo && ahi <= hi && bhi <= hi
    ensures Run(a + b, lo, hi, num, ok)
  {
    var r := a + b;
    forall i, j | 0 <= i < j < |r|
      ensures num(r[i]) != num(r[j])
    {
      if j < |a| {
        assert r[i] == a[i] && r[j] == a[j];
      } else if i < |a| {
        assert r[i] == a[i] && r[j] == b[j - |a|];
      } else {
        assert r[i] == b[i - |a|] && r[j] == b[j - |a|];
      }
    }
    forall k | 0 <= k < |r|
      ensures ok(r[k]) && lo <= num(r[k]) < hi
    {
      if k < |a| {
        assert r[k] == a[k];
      } else {
        assert r[k] == b[k - |a|];
      }
    }
  }

  /** Runs numbered `[|b|, |b| + |a|)`, `[0, |b|)` and onwards from
      `|b| + |a|`, the first reversed, join into one run numbered from 0 up
      to the total length. */
  lemma {:induction false} JoinThree<T>(a: seq<T>, b: seq<T>, c: seq<T>, num: T -> nat, ok: T -> bool)
    requires Run(a, |b|, |b| + |a|, num, ok) && Run(b, 0, |b|, num, ok)
    requires Run(c, |b| + |a|, |b| + |a| + |c|, num, ok)
    ensures Run(Reverse(a) + b + c, 0, |a| + |b| + |c|, num, ok)
  {
    var m1, m2 := |b|, |b| + |a|;
    ReverseRun(a, m1, m2, num, ok);
    JoinRuns(Reverse(a), b, m1, m2, 0, m1, 0, m2, num, ok);
    JoinRuns(Reverse(a) + b, c, 0, m2, m2, m2 + |c|, 0, m2 + |c|, num, ok);
  }

  /** The elements that `keep` accepts, in order (`Array.prototype.filter`). */
  function Filter<T>(s: seq<T>, keep: T -> bool): (r: seq<T>)
    ensures |r| <= |s|
    ensures forall k | 0 <= k < |r| :: keep(r[k])
    decreases |s|
  {
    if |s| == 0 then []
    else (if keep(s[0]) then [s[0]] else []) + Filter(s[1..], keep)
  }

  /** The filter keeps exactly the elements that pass. */
  lemma {:induction false} FilterConcat<T>(a: seq<T>, b: seq<T>, keep: T -> bool)
    ensures Filter(a + b, keep) == Filter(a, keep) + Filter(b, keep)
    decreases |a|
  {
    if |a| == 0 {
      assert a + b == b;
    } else {
      assert (a + b)[1..] == a[1..] + b;
      FilterConcat(a[1..], b, keep);
    }
  }

  lemma {:induction false} FilterMembers<T>(s: seq<T>, keep: T -> bool)
    ensures forall x :: x in Filter(s, keep) <==> x in s && keep(x)
    decreases |s|
  {
    if |s| > 0 {
      FilterMembers(s[1..], keep);
      assert s == [s[0]] + s[1..];
    }
  }

  lemma {:induction false} FilterFrom<T>(s: seq<T>, keep: T -> bool, x: T)
    requires x in Filter(s, keep)
    ensures x in s
  {
    FilterMembers(s, keep);
  }

  /** Filtering a run leaves a run. */
  lemma {:induction false} FilterRun<T>(s: seq<T>, keep: T -> bool, lo: nat, hi: nat, num: T -> nat, ok: T -> bool)
    requires Run(s, lo, hi, num, ok)
    ensures Run(Filter(s, keep), lo, hi, num, ok)
    decreases |s|
  {
    if |s| > 0 {
      var w := s[1..];
      assert Run(w, lo, hi, num, ok) by {
        forall i, j | 0 <= i < j < |w|
          ensures num(w[i]) != num(w[j])
        {
          assert w[i] == s[i + 1] && w[j] == s[j + 1];
        }
        forall k | 0 <= k < |w|
          ensures ok(w[k]) && lo <= num(w[k]) < hi
        {
          assert w[k] == s[k + 1];
        }
      }
      FilterRun(w, keep, lo, hi, num, ok);
      var rest := Filter(w, keep);
      var r := Filter(s, keep);
      if keep(s[0]) {
        assert r == [s[0]] + rest;
        forall x | x in rest
          ensures num(x) != num(s[0])
        {
          FilterFrom(w, keep, x);
          var k :| 0 <= k < |w| && w[k] == x;
          assert s[k + 1] == x;
        }
        forall i, j | 0 <= i < j < |r|
          ensures num(r[i]) != num(r[j])
        {
          assert r[j] == rest[j - 1];
          if i > 0 {
            assert r[i] == rest[i - 1];
          } else {
            assert r[j] in rest;
          }
        }
        forall k | 0 <= k < |r|
          ensures ok(r[k]) && lo <= num(r[k]) < hi
        {
          if k > 0 {
            assert r[k] == rest[k - 1];
          }
        }
      } else {
        assert r == rest;
      }
    }
  }
}

=== FILE: sections.dfy ===
/** What the page parser records for one candidate element: its id, the kind
    of section its class and id suggest, its HTML, a short text preview and a
    display name. */
module Sections {
  import opened Wrappers
  import opened Strings
  import opened Dom

  datatype Section = Section(id: string, kind: string, html: string, previewText: string, name: string)

  /** The section kinds, in the order the keyword table tries them. */
  datatype Kind = Hero | Features | Pricing | Testimonials | HeaderNav | FooterKind | Unknown {

    /** The `type` string recorded for the kind. */
    function TypeName(): string {
      match this
      case Hero => "hero"
      case Features => "features"
      case Pricing => "pricing"
      case Testimonials => "testimonials"
      case HeaderNav => "header"
      case FooterKind => "footer"
      case Unknown => "unknown"
    }

    /** The display name recorded for the kind; an unknown kind keeps the
        caller's default. */
    function DisplayName(default: string): string {
      match this
      case Hero => "Hero Section"
      case Features => "Features"
      case Pricing => "Pricing"
      case Testimonials => "Testimonials"
      case HeaderNav => "Header/Nav"
      case FooterKind => "Footer"
      case Unknown => default
    }
  }

  const SectionTypes: set<string> :=
    {"hero", "features", "pricing", "testimonials", "header", "footer", "unknown"}

  /** Every kind records one of the section types, and only `Unknown` records "unknown". */
  lemma {:induction false} KindNamesAreTypes(k: Kind)
    ensures k.TypeName() in SectionTypes
    ensures k.TypeName() == "unknown" <==> k == Unknown
  {
  }

  /** The keyword table: the first keyword found in `lower` decides. */
  function Classify(lower: string): Kind {
    if Includes(lower, "hero") then Hero
    else if Includes(lower, "feature") then Features
    else if Includes(lower, "pric") then Pricing
    else if Includes(lower, "testimoni") then Testimonials
    else if Includes(lower, "nav") || Includes(lower, "header") then HeaderNav
    else if Includes(lower, "foot") then FooterKind
    else Unknown
  }

  /** The table stated with occurrences: each kind is chosen exactly when its
      keyword occurs and no earlier keyword does. */
  lemma {:induction false} ClassifyCases(lower: string)
    ensures Classify(lower) == Hero <==> Contains(lower, "hero")
    ensures Classify(lower) == Features <==>
      !Contains(lower, "hero") && Contains(lower, "feature")
    ensures Classify(lower) == Pricing <==>
      !Contains(lower, "hero") && !Contains(lower, "feature") && Contains(lower, "pric")
    ensures Classify(lower) == Testimonials <==>
      !Contains(lower, "hero") && !Contains(lower, "feature") && !Contains(lower, "pric") &&
      Contains(lower, "testimoni")
    ensures Classify(lower) == HeaderNav <==>
      !Contains(lower, "hero") && !Contains(lower, "feature") && !Contains(lower, "pric") &&
      !Contains(lower, "testimoni") && (Contains(lower, "nav") || Contains(lower, "header"))
    ensures Classify(lower) == Unknown <==>
      !Contains(lower, "hero") && !Contains(lower, "feature") && !Contains(lower, "pric") &&
      !Contains(lower, "testimoni") && !Contains(lower, "nav") && !Contains(lower, "header") &&
      !Contains(lower, "foot")
  {
    IncludesIff(lower, "hero");
    IncludesIff(lower, "feature");
    IncludesIff(lower, "pric");
    IncludesIff(lower, "testimoni");
    IncludesIff(lower, "nav");
    IncludesIff(lower, "header");
    IncludesIff(lower, "foot");
  }

  /** `(class + ' ' + id).toLowerCase()`, absent attributes read as "". */
  function ClassKey(el: Node): (r: string)
    ensures |r| >= |Attr(el, "class").GetOr("")| + 1 + |Attr(el, "id").GetOr("")|
    ensures forall k | 0 <= k < |r| :: !IsAsciiUpper(r[k])
  {
    ToLower(Attr(el, "class").GetOr("") + " " + Attr(el, "id").GetOr(""))
  }

  /** The key keeps a separating space between the two attributes, so a
      keyword split across them is not found. */
  lemma {:induction false} ClassKeyParts(el: Node)
    ensures var c := Attr(el, "class").GetOr(""); var i := Attr(el, "id").GetOr("");
      ClassKey(el) == ToLower(c) + " " + ToLower(i)
  {
    var c := Attr(el, "class").GetOr("");
    var i := Attr(el, "id").GetOr("");
    ToLowerConcat(c + " ", i);
    ToLowerConcat(c, " ");
    assert ToLower(" ") == " " + ToLower(" "[1..]);
  }

  /** The preview's length limit, in UTF-16 code units. */
  const PreviewLength: nat := 150

  /** `text.replace(/\s+/g, ' ').trim().slice(0, 150) + '...'`. */
  function Preview(text: string): (r: string)
    ensures 3 <= |r| <= PreviewLength + 3
    ensures OccursAt(r, |r| - 3, "...")
    ensures var t := Trim(CollapseSpaces(text)); var body := r[..|r| - 3];
      body <= t && Utf16Length(body) <= PreviewLength &&
      (Utf16Length(t) <= PreviewLength ==> body == t) &&
      (|body| < |t| ==> Utf16Length(body) + Units(t[|body|]) > PreviewLength)
  {
    Ellipsis(Utf16Take(Trim(CollapseSpaces(text)), PreviewLength))
  }

  /** `body + '...'`. */
  function Ellipsis(body: string): (r: string)
    ensures |r| == |body| + 3 && r[..|body|] == body && OccursAt(r, |body|, "...")
  {
    var r := body + "...";
    assert r[|body|..|r|] == "...";
    r
  }

  /** A preview of a short text loses none of its visible characters. */
  lemma {:induction false} PreviewKeepsShortText(text: string)
    requires Utf16Length(Trim(CollapseSpaces(text))) <= PreviewLength
    ensures var r := Preview(text); NonSpace(r[..|r| - 3]) == NonSpace(text)
  {
    CollapseKeepsText(text);
    NonSpaceOfTrim(CollapseSpaces(text));
  }

  /** `processElement`: the element's printed HTML, the kind its class and id
      suggest, its preview, and the kind's display name or `defaultName`. */
  function Process(el: Node, id: string, defaultName: string, outer: Node -> string): (r: Section)
    ensures r.id == id && r.html == outer(el)
    ensures r.kind in SectionTypes
    ensures r.kind == Classify(ClassKey(el)).TypeName()
    ensures r.kind == "unknown" <==> Classify(ClassKey(el)) == Unknown
    ensures r.kind == "unknown" ==> r.name == defaultName
    ensures r.name == Classify(ClassKey(el)).DisplayName(defaultName)
    ensures r.previewText == Preview(TextOf(el))
    ensures |r.previewText| <= PreviewLength + 3
  {
    Record(Classify(ClassKey(el)), id, outer(el), Preview(TextOf(el)), defaultName)
  }

  /** The section recorded for an element of kind `k`. */
  function Record(k: Kind, id: string, html: string, preview: string, defaultName: string): (r: Section)
    ensures r.id == id && r.html == html && r.previewText == preview
    ensures r.kind in SectionTypes && r.kind == k.TypeName()
    ensures r.kind == "unknown" <==> k == Unknown
    ensures r.kind == "unknown" ==> r.name == defaultName
    ensures r.name == k.DisplayName(defaultName)
  {
    KindNamesAreTypes(k);
    Section(id, k.TypeName(), html, preview, k.DisplayName(defaultName))
  }

  /** The names a recognised kind records. */
  const KindNames: set<string> :=
    {"Hero Section", "Features", "Pricing", "Testimonials", "Header/Nav", "Footer"}

  /** The caller's default name matters exactly for unrecognised elements:
      a recognised kind records its own name, whatever the default. */
  lemma {:induction false} ProcessNames(el: Node, id: string, d1: string, d2: string, outer: Node -> string)
    ensures var r1 := Process(el, id, d1, outer); var r2 := Process(el, id, d2, outer);
      (r1.kind != "unknown" ==> r1.name in KindNames) &&
      (r1.name == r2.name <==> r1.kind != "unknown" || d1 == d2)
  {
    KindNamesFixed(Classify(ClassKey(el)), d1, d2);
  }

  /** A recognised kind's display name is one of the fixed names and ignores
      the default; the unknown kind's is the default itself. */
  lemma {:induction false} KindNamesFixed(k: Kind, d1: string, d2: string)
    ensures k != Unknown ==> k.DisplayName(d1) in KindNames
    ensures k.DisplayName(d1) == k.DisplayName(d2) <==> k != Unknown || d1 == d2
  {
  }

  /** The preview depends on the element's text alone. */
  lemma {:induction false} ProcessPreviewByText(a: Node, b: Node, id: string, d: string, outer: Node -> string)
    requires TextOf(a) == TextOf(b)
    ensures Process(a, id, d, outer).previewText == Process(b, id, d, outer).previewText
  {
  }
}

=== FILE: strings.dfy ===
/** The JavaScript string primitives the application relies on, over `seq<char>`:
    the whitespace and word classes of its regular expressions, `trim`,
    `includes`, `split`/`join`, `toLowerCase`, and decimal numerals for the
    section ids. */
module Strings {

  /** JavaScript's `\s` class. `String.prototype.trim` strips exactly this set. */
  predicate IsSpace(c: char) {
    || c == ' ' || c == '\t' || c == '\n' || c == '\r'
    || c as int == 0x0B || c as int == 0x0C || c as int == 0xA0
    || c as int == 0x1680 || (0x2000 <= c as int <= 0x200A)
    || c as int == 0x2028 || c as int == 0x2029 || c as int == 0x202F
    || c as int == 0x205F || c as int == 0x3000 || c as int == 0xFEFF
  }

  /** The characters after which `^` matches in a multiline regular expression. */
  predicate IsLineTerminator(c: char) {
    c == '\n' || c == '\r' || c as int == 0x2028 || c as int == 0x2029
  }

  /** JavaScript's `\w` class (without the unicode flag). */
  predicate IsWordChar(c: char) {
    ('a' <= c <= 'z') || ('A' <= c <= 'Z') || ('0' <= c <= '9') || c == '_'
  }

  /** A non-empty run of word characters: what `(\w+)` captures. */
  predicate IsWord(w: string) {
    |w| > 0 && forall k | 0 <= k < |w| :: IsWordChar(w[k])
  }

  predicate IsDigit(c: char) {
    '0' <= c <= '9'
  }

  predicate AllSpace(s: string) {
    forall k | 0 <= k < |s| :: IsSpace(s[k])
  }

  predicate NoSpace(s: string) {
    forall k | 0 <= k < |s| :: !IsSpace(s[k])
  }

  /** Neither end of `s` is whitespace: the shape `trim` leaves. */
  predicate IsTrimmed(s: string) {
    |s| == 0 || (!IsSpace(s[0]) && !IsSpace(s[|s| - 1]))
  }

  /** `p` occurs in `s` starting at index `i`. */
  predicate OccursAt(s: string, i: int, p: string) {
    0 <= i && i + |p| <= |s| && s[i..i + |p|] == p
  }

  ghost predicate Contains(s: string, p: string) {
    exists i :: OccursAt(s, i, p)
  }

  /** `String.prototype.includes`, as a left-to-right scan. */
  predicate Includes(s: string, p: string)
    decreases |s|
  {
    p <= s || (|s| > 0 && Includes(s[1..], p))
  }

  /** Occurrences in the tail are occurrences one position further on. */
  lemma {:induction false} OccursShift(s: string, i: nat, p: string)
    requires |s| > 0
    ensures OccursAt(s[1..], i, p) <==> OccursAt(s, i + 1, p)
  {
    if i + |p| <= |s| - 1 {
      assert s[1..][i..i + |p|] == s[i + 1..i + 1 + |p|];
    }
  }

  /** An occurrence at the start is a prefix. */
  lemma {:induction false} OccursAtStart(s: string, p: string)
    ensures OccursAt(s, 0, p) <==> p <= s
  {
    if |p| <= |s| {
      assert s[0..|p|] == s[..|p|];
    }
  }

  /** The scan finds `p` exactly when `p` occurs somewhere in `s`. */
  lemma {:induction false} IncludesIff(s: string, p: string)
    ensures Includes(s, p) <==> Contains(s, p)
    decreases |s|
  {
    OccursAtStart(s, p);
    if |s| > 0 {
      IncludesIff(s[1..], p);
      if Includes(s, p) && !(p <= s) {
        var i :| OccursAt(s[1..], i, p);
        OccursShift(s, i, p);
      }
      if Contains(s, p) {
        var i :| OccursAt(s, i, p);
        if i > 0 {
          OccursShift(s, i - 1, p);
        }
      }
    } else if Contains(s, p) {
      var i :| OccursAt(s, i, p);
      assert i == 0;
    }
  }

  /** A pattern holding a character that `s` lacks is not found in `s`. */
  lemma {:induction false} IncludesAbsent(s: string, p: string, c: char)
    requires c in p && c !in s
    ensures !Includes(s, p)
  {
    IncludesIff(s, p);
    var j :| 0 <= j < |p| && p[j] == c;
    forall i | 0 <= i && i + |p| <= |s|
      ensures !OccursAt(s, i, p)
    {
      assert s[i..i + |p|][j] == s[i + j];
    }
  }

  /** A character missing from `s` is missing from every slice of it. */
  lemma {:induction false} AbsentFromSlice(s: string, i: nat, j: nat, c: char)
    requires i <= j <= |s| && c !in s
    ensures c !in s[i..j]
  {
    forall k | 0 <= k < j - i
      ensures s[i..j][k] != c
    {
      assert s[i..j][k] == s[i + k];
    }
  }

  /** Number of (possibly overlapping) occurrences of a non-empty `p` in `s`. */
  function Count(s: string, p: string): nat
    requires |p| > 0
    decreases |s|
  {
    if |s| < |p| then 0
    else (if p <= s then 1 else 0) + Count(s[1..], p)
  }

  /** Occurrences add up across a seam that no occurrence can straddle: one of
      the two characters meeting at the seam does not appear in `p`. */
  lemma {:induction false} CountConcat(a: string, b: string, p: string)
    requires |p| > 0
    requires |a| == 0 || |b| == 0 || a[|a| - 1] !in p || b[0] !in p
    ensures Count(a + b, p) == Count(a, p) + Count(b, p)
    decreases |a|
  {
    if |a| == 0 {
      assert a + b == b;
    } else if |b| == 0 {
      assert a + b == a;
    } else {
      assert (a + b)[1..] == a[1..] + b;
      CountConcat(a[1..], b, p);
      if |a| < |p| && |a + b| >= |p| {
        assert (a + b)[|a| - 1] == a[|a| - 1] && (a + b)[|a|] == b[0];
      } else if |a| >= |p| {
        assert (p <= a + b) == (p <= a) by {
          assert (a + b)[..|p|] == a[..|p|];
        }
      }
    }
  }

  /** `Count` is zero exactly when the pattern occurs nowhere. */
  lemma {:induction false} CountZero(s: string, p: string)
    requires |p| > 0
    ensures Count(s, p) == 0 <==> forall k | 0 <= k <= |s| - |p| :: !OccursAt(s, k, p)
    decreases |s|
  {
    if |s| >= |p| {
      CountZero(s[1..], p);
      assert OccursAt(s, 0, p) <==> p <= s by {
        assert s[0..|p|] == s[..|p|];
      }
      forall k | 1 <= k <= |s| - |p|
        ensures OccursAt(s, k, p) <==> OccursAt(s[1..], k - 1, p)
      {
        var a, b := s[k..k + |p|], s[1..][k - 1..k - 1 + |p|];
        assert |a| == |b| && forall m | 0 <= m < |a| :: a[m] == b[m];
        assert a == b;
      }
      if Count(s, p) == 0 {
        assert !(p <= s);
      } else if p <= s {
        assert OccursAt(s, 0, p);
      } else {
        var k :| 0 <= k <= |s[1..]| - |p| && OccursAt(s[1..], k, p);
        assert OccursAt(s, k + 1, p);
      }
    }
  }

  /** A pattern holding a character that `s` lacks never occurs in `s`. */
  lemma {:induction false} CountAbsent(s: string, p: string, c: char)
    requires |p| > 0 && c in p && c !in s
    ensures Count(s, p) == 0
    decreases |s|
  {
    if |s| >= |p| {
      CountAbsent(s[1..], p, c);
    }
  }

  /** A one-character pattern never straddles a seam, so its occurrences add up. */
  lemma {:induction false} CountCharConcat(a: string, b: string, c: char)
    ensures Count(a + b, [c]) == Count(a, [c]) + Count(b, [c])
    decreases |a|
  {
    if |a| == 0 {
      assert a + b == b;
    } else {
      assert (a + b)[1..] == a[1..] + b;
      CountCharConcat(a[1..], b, c);
      assert (a + b)[0] == a[0];
      assert [c] <= a + b <==> (a + b)[0] == c;
      assert [c] <= a <==> a[0] == c;
    }
  }

  // ---------------------------------------------------------------------------
  // trim

  /** End of the whitespace run that starts at `i`. */
  function SpacesFrom(s: string, i: nat): (k: nat)
    requires i <= |s|
    ensures i <= k <= |s|
    ensures forall j | i <= j < k :: IsSpace(s[j])
    ensures k == |s| || !IsSpace(s[k])
    decreases |s| - i
  {
    if i < |s| && IsSpace(s[i]) then SpacesFrom(s, i + 1) else i
  }

  /** Start of the whitespace run that ends at `j`, not reaching below `lo`. */
  function SpacesBefore(s: string, lo: nat, j: nat): (k: nat)
    requires lo <= j <= |s|
    ensures lo <= k <= j
    ensures forall m | k <= m < j :: IsSpace(s[m])
    ensures k == lo || !IsSpace(s[k - 1])
    decreases j - lo
  {
    if lo < j && IsSpace(s[j - 1]) then SpacesBefore(s, lo, j - 1) else j
  }

  /** `trimStart`: drops the leading whitespace run. */
  function TrimStart(s: string): (r: string)
    ensures |r| <= |s| && r == s[|s| - |r|..]
    ensures AllSpace(s[..|s| - |r|])
    ensures |r| == 0 || !IsSpace(r[0])
  {
    s[SpacesFrom(s, 0)..]
  }

  /** `String.prototype.trim`: `s` is the result framed by two whitespace runs. */
  function Trim(s: string): (r: string)
    ensures IsTrimmed(r)
    ensures exists i :: OccursAt(s, i, r) && AllSpace(s[..i]) && AllSpace(s[i + |r|..])
  {
    var a := SpacesFrom(s, 0);
    var b := SpacesBefore(s, a, |s|);
    assert OccursAt(s, a, s[a..b]);
    s[a..b]
  }

  /** A slice of a suffix is a slice of the whole. */
  lemma {:induction false} SliceOfSlice(s: string, i: nat, a: nat, b: nat)
    requires a <= b && i + b <= |s|
    ensures s[i..][a..b] == s[i + a..i + b]
  {
  }

  /** Prepending the character before a slice extends the slice. */
  lemma {:induction false} ConsSlice(s: string, i: nat, j: nat, t: string)
    requires i < j <= |s|
    ensures [s[i]] + (s[i + 1..j] + t) == s[i..j] + t
  {
    assert s[i..j] == [s[i]] + s[i + 1..j];
  }

  /** An occurrence inside an occurrence is an occurrence in the outer text. */
  lemma {:induction false} OccursWithin(s: string, i: int, r: string, k: int, p: string)
    requires OccursAt(s, i, r) && OccursAt(r, k, p)
    ensures OccursAt(s, i + k, p)
  {
    forall m | 0 <= m < |p|
      ensures s[i + k..i + k + |p|][m] == p[m]
    {
      assert s[i + k + m] == s[i..i + |r|][k + m] == r[k + m] == r[k..k + |p|][m];
    }
  }

  /** Trimming a string that is already trimmed changes nothing. */
  lemma {:induction false} TrimTrimmed(s: string)
    requires IsTrimmed(s)
    ensures Trim(s) == s
  {
    assert s[0..|s|] == s;
  }

  /** Whatever occurs in `Trim(s)` occurs in `s`. */
  lemma {:induction false} TrimKeepsAbsence(s: string, p: string)
    requires forall k :: !OccursAt(s, k, p)
    ensures forall k :: !OccursAt(Trim(s), k, p)
  {
    var r := Trim(s);
    var i :| OccursAt(s, i, r) && AllSpace(s[..i]) && AllSpace(s[i + |r|..]);
    forall k | OccursAt(r, k, p)
      ensures OccursAt(s, i + k, p)
    {
      OccursWithin(s, i, r, k, p);
    }
  }


  // ---------------------------------------------------------------------------
  // whitespace collapsing: `replace(/\s+/g, ' ')`

  /** The non-whitespace characters of `s`, in order. */
  function NonSpace(s: string): string
    decreases |s|
  {
    if |s| == 0 then []
    else (if IsSpace(s[0]) then [] else [s[0]]) + NonSpace(s[1..])
  }

  /** Every maximal whitespace run replaced by a single space. */
  function CollapseSpaces(s: string): (r: string)
    ensures |r| <= |s|
    ensures |s| > 0 ==> |r| > 0 && (IsSpace(r[0]) <==> IsSpace(s[0]))
    ensures forall k | 0 <= k < |r| && IsSpace(r[k]) :: r[k] == ' '
    ensures forall k | 0 <= k < |r| - 1 :: !(IsSpace(r[k]) && IsSpace(r[k + 1]))
    decreases |s|
  {
    if |s| == 0 then []
    else if IsSpace(s[0]) then [' '] + CollapseSpaces(TrimStart(s))
    else [s[0]] + CollapseSpaces(s[1..])
  }

  lemma {:induction false} NonSpaceOfSpaces(s: string)
    requires AllSpace(s)
    ensures NonSpace(s) == []
    decreases |s|
  {
    if |s| > 0 {
      NonSpaceOfSpaces(s[1..]);
    }
  }

  lemma {:induction false} NonSpaceConcat(a: string, b: string)
    ensures NonSpace(a + b) == NonSpace(a) + NonSpace(b)
    decreases |a|
  {
    if |a| == 0 {
      assert a + b == b;
    } else {
      assert (a + b)[1..] == a[1..] + b;
      NonSpaceConcat(a[1..], b);
    }
  }

  lemma {:induction false} NonSpaceSplit(s: string, i: nat)
    requires i <= |s|
    ensures NonSpace(s) == NonSpace(s[..i]) + NonSpace(s[i..])
  {
    assert s == s[..i] + s[i..];
    NonSpaceConcat(s[..i], s[i..]);
  }

  lemma {:induction false} NonSpaceDropFront(s: string, a: nat)
    requires a <= |s| && AllSpace(s[..a])
    ensures NonSpace(s[a..]) == NonSpace(s)
  {
    NonSpaceSplit(s, a);
    NonSpaceOfSpaces(s[..a]);
  }

  lemma {:induction false} NonSpaceDropBack(s: string, b: nat)
    requires b <= |s| && AllSpace(s[b..])
    ensures NonSpace(s[..b]) == NonSpace(s)
  {
    NonSpaceSplit(s, b);
    NonSpaceOfSpaces(s[b..]);
  }

  /** Dropping whitespace from both ends keeps the visible characters. */
  lemma {:induction false} NonSpaceOfFrame(s: string, a: nat, b: nat)
    requires a <= b <= |s| && AllSpace(s[..a]) && AllSpace(s[b..])
    ensures NonSpace(s[a..b]) == NonSpace(s)
  {
    var t := s[a..];
    NonSpaceDropFront(s, a);
    assert t[b - a..] == s[b..];
    NonSpaceDropBack(t, b - a);
    assert t[..b - a] == s[a..b];
  }

  /** Trimming only drops whitespace: the visible characters are the same. */
  lemma {:induction false} NonSpaceOfTrim(s: string)
    ensures NonSpace(Trim(s)) == NonSpace(s)
  {
    var a := SpacesFrom(s, 0);
    var b := SpacesBefore(s, a, |s|);
    assert AllSpace(s[..a]) by {
      forall k | 0 <= k < a ensures IsSpace(s[..a][k]) { assert s[..a][k] == s[k]; }
    }
    assert AllSpace(s[b..]) by {
      forall k | 0 <= k < |s| - b ensures IsSpace(s[b..][k]) { assert s[b..][k] == s[b + k]; }
    }
    NonSpaceOfFrame(s, a, b);
  }

  /** Collapsing only touches whitespace: the visible characters are the same. */
  lemma {:induction false} CollapseKeepsText(s: string)
    ensures NonSpace(CollapseSpaces(s)) == NonSpace(s)
    decreases |s|
  {
    if |s| > 0 {
      if IsSpace(s[0]) {
        var t := TrimStart(s);
        CollapseKeepsText(t);
        NonSpaceConcat([' '], CollapseSpaces(t));
        assert s == s[..|s| - |t|] + t;
        NonSpaceConcat(s[..|s| - |t|], t);
        NonSpaceOfSpaces(s[..|s| - |t|]);
      } else {
        CollapseKeepsText(s[1..]);
        NonSpaceConcat([s[0]], CollapseSpaces(s[1..]));
      }
    }
  }

  /** `SpacesFrom` is pinned down by its contract: the first non-space at or after `i`. */
  lemma {:induction false} SpacesFromIs(s: string, i: nat, k: nat)
    requires i <= k <= |s|
    requires forall j | i <= j < k :: IsSpace(s[j])
    requires k == |s| || !IsSpace(s[k])
    ensures SpacesFrom(s, i) == k
  {
  }

  lemma {:induction false} TrimStartConcat(a: string, b: string)
    requires !AllSpace(a)
    ensures TrimStart(a + b) == TrimStart(a) + b
  {
    var k := SpacesFrom(a, 0);
    SpacesFromIs(a + b, 0, k);
    assert (a + b)[k..] == a[k..] + b;
  }

  lemma {:induction false} TrimStartOfSpaces(a: string, b: string)
    requires AllSpace(a)
    ensures TrimStart(a + b) == TrimStart(b)
  {
    var m := SpacesFrom(b, 0);
    SpacesFromIs(a + b, 0, |a| + m);
    assert (a + b)[|a| + m..] == b[m..];
  }

  /** A whitespace run of any length and kind collapses to one space. */
  lemma {:induction false} CollapseRun(w: string)
    requires |w| > 0 && AllSpace(w)
    ensures CollapseSpaces(w) == " "
  {
    SpacesFromIs(w, 0, |w|);
    assert TrimStart(w) == [];
    assert CollapseSpaces(w) == [' '] + CollapseSpaces([]);
  }

  lemma {:induction false} CollapseRunThen(a: string, b: string)
    requires |a| > 0 && AllSpace(a) && (|b| == 0 || !IsSpace(b[0]))
    ensures CollapseSpaces(a + b) == CollapseSpaces(a) + CollapseSpaces(b)
  {
    TrimStartOfSpaces(a, b);
    SpacesFromIs(b, 0, 0);
    CollapseRun(a);
  }

  /** Collapsing works run by run: a cut that does not fall inside a
      whitespace run commutes with it. With `CollapseRun` and the fact that a
      visible character is kept as it is, this pins the result down: the
      visible characters in order, with one ' ' wherever `s` has a run. */
  lemma {:induction false} CollapseConcat(a: string, b: string)
    requires |a| == 0 || |b| == 0 || !IsSpace(a[|a| - 1]) || !IsSpace(b[0])
    ensures CollapseSpaces(a + b) == CollapseSpaces(a) + CollapseSpaces(b)
    decreases |a|, 1
  {
    if |a| == 0 {
      assert a + b == b;
    } else if !IsSpace(a[0]) {
      CollapseConcatVisible(a, b);
    } else if AllSpace(a) {
      CollapseRunThen(a, b);
    } else {
      CollapseConcatSpace(a, b);
    }
  }

  lemma {:induction false} CollapseConcatVisible(a: string, b: string)
    requires |a| > 0 && !IsSpace(a[0])
    requires |b| == 0 || !IsSpace(a[|a| - 1]) || !IsSpace(b[0])
    ensures CollapseSpaces(a + b) == CollapseSpaces(a) + CollapseSpaces(b)
    decreases |a|, 0
  {
    assert (a + b)[0] == a[0];
    assert (a + b)[1..] == a[1..] + b;
    CollapseConcat(a[1..], b);
  }

  lemma {:induction false} CollapseConcatSpace(a: string, b: string)
    requires |a| > 0 && IsSpace(a[0]) && !AllSpace(a)
    requires |b| == 0 || !IsSpace(a[|a| - 1]) || !IsSpace(b[0])
    ensures CollapseSpaces(a + b) == CollapseSpaces(a) + CollapseSpaces(b)
    decreases |a|, 0
  {
    var t := TrimStart(a);
    assert CollapseSpaces(a + b) == [' '] + CollapseSpaces(t + b) by {
      TrimStartConcat(a, b);
      assert (a + b)[0] == a[0];
      CollapseAfterRun(a + b, t + b);
    }
    assert CollapseSpaces(t + b) == CollapseSpaces(t) + CollapseSpaces(b) by {
      assert t[|t| - 1] == a[|a| - 1];
      CollapseConcat(t, b);
    }
    CollapseAfterRun(a, t);
    PrependJoin(CollapseSpaces(a + b), CollapseSpaces(t + b), CollapseSpaces(t), CollapseSpaces(b),
      CollapseSpaces(a));
  }

  lemma {:induction false} PrependJoin(whole: string, rest: string, x: string, y: string, xs: string)
    requires whole == [' '] + rest && rest == x + y && xs == [' '] + x
    ensures whole == xs + y
  {
  }

  /** A leading run collapses to one ' ' before the rest. */
  lemma {:induction false} CollapseAfterRun(s: string, rest: string)
    requires |s| > 0 && IsSpace(s[0]) && rest == TrimStart(s)
    ensures CollapseSpaces(s) == [' '] + CollapseSpaces(rest)
  {
  }

  /** Text already spaced with single ' ' characters is left as it is. */
  lemma {:induction false} CollapseSingleSpaced(s: string)
    requires forall k | 0 <= k < |s| && IsSpace(s[k]) :: s[k] == ' '
    requires forall k | 0 <= k < |s| - 1 :: !(IsSpace(s[k]) && IsSpace(s[k + 1]))
    ensures CollapseSpaces(s) == s
    decreases |s|
  {
    if |s| > 0 {
      if IsSpace(s[0]) {
        SpacesFromIs(s, 0, 1);
      }
      CollapseSingleSpaced(s[1..]);
    }
  }

  // ---------------------------------------------------------------------------
  // split / join with a one-character separator

  /** `s.split(sep)` for a one-character string separator. */
  function Split(s: string, sep: char): (r: seq<string>)
    ensures |r| > 0
    ensures forall k | 0 <= k < |r| :: sep !in r[k]
    decreases |s|
  {
    if |s| == 0 then [""]
    else if s[0] == sep then [""] + Split(s[1..], sep)
    else
      var t := Split(s[1..], sep);
      [[s[0]] + t[0]] + t[1..]
  }

  /** `parts.join(sep)`. */
  function Join(parts: seq<string>, sep: string): string
    decreases |parts|
  {
    if |parts| == 0 then ""
    else if |parts| == 1 then parts[0]
    else parts[0] + sep + Join(parts[1..], sep)
  }

  /** Splitting and re-joining with the same separator gives the string back. */
  lemma {:induction false} JoinSplit(s: string, sep: char)
    ensures Join(Split(s, sep), [sep]) == s
    decreases |s|
  {
    if |s| > 0 {
      var t := Split(s[1..], sep);
      JoinSplit(s[1..], sep);
      if s[0] == sep {
        assert Split(s, sep) == [""] + t;
      } else {
        var r := Split(s, sep);
        assert r == [[s[0]] + t[0]] + t[1..];
        if |t| == 1 {
          assert Join(r, [sep]) == [s[0]] + t[0];
        } else {
          assert r[1..] == t[1..];
          assert Join(t, [sep]) == t[0] + [sep] + Join(t[1..], [sep]);
        }
      }
    }
  }

  /** The number of parts is one more than the number of separators. */
  lemma {:induction false} SplitCount(s: string, sep: char)
    ensures |Split(s, sep)| == Count(s, [sep]) + 1
    decreases |s|
  {
    if |s| > 0 {
      SplitCount(s[1..], sep);
      assert ([sep] <= s) == (s[0] == sep);
    }
  }

  // ---------------------------------------------------------------------------
  // words: the tokens of `t.split(/\s+/)` for a trimmed `t`

  /** The leading run of non-whitespace characters. */
  function FirstWord(s: string): (r: string)
    ensures r <= s && NoSpace(r)
    ensures |r| == |s| || IsSpace(s[|r|])
    decreases |s|
  {
    if |s| == 0 || IsSpace(s[0]) then [] else [s[0]] + FirstWord(s[1..])
  }

  /** The second token of a trimmed string, or "" when it has only one. */
  function SecondWord(s: string): (r: string)
    ensures NoSpace(r)
  {
    FirstWord(TrimStart(s[|FirstWord(s)|..]))
  }

  /** The second token is made of characters of `s`. */
  lemma {:induction false} SecondWordWithin(s: string, c: char)
    requires c !in s
    ensures c !in SecondWord(s)
  {
    var w := FirstWord(s);
    AbsentFromSlice(s, |w|, |s|, c);
    var t := s[|w|..];
    AbsentFromSlice(t, |t| - |TrimStart(t)|, |t|, c);
    var u := TrimStart(t);
    AbsentFromSlice(u, 0, |FirstWord(u)|, c);
    assert FirstWord(u) == u[0..|FirstWord(u)|];
  }

  // ---------------------------------------------------------------------------
  // case

  function LowerChar(c: char): (d: char)
    ensures 'A' <= c <= 'Z' ==> 'a' <= d <= 'z'
  {
    if 'A' <= c <= 'Z' then (c as int + 32) as char else c
  }

  predicate IsAsciiUpper(c: char) {
    'A' <= c <= 'Z'
  }

  /** The lower case of one character: the ASCII letters, and the two
      characters outside ASCII whose lower case holds an ASCII letter,
      U+0130 (capital I with dot above, lowered to "i" and U+0307) and U+212A
      (Kelvin sign, lowered to "k"). Every other character is kept. */
  function LowerText(c: char): (r: string)
    ensures 1 <= |r| <= 2
    ensures forall k | 0 <= k < |r| :: !IsAsciiUpper(r[k])
  {
    if IsAsciiUpper(c) then [LowerChar(c)]
    else if c as int == 0x130 then ['i', 0x307 as char]
    else if c as int == 0x212A then ['k']
    else [c]
  }

  /** `toLowerCase`, for the characters `LowerText` covers. */
  function ToLower(s: string): (r: string)
    ensures |s| <= |r| <= 2 * |s|
    ensures forall k | 0 <= k < |r| :: !IsAsciiUpper(r[k])
    decreases |s|
  {
    if |s| == 0 then [] else LowerText(s[0]) + ToLower(s[1..])
  }

  lemma {:induction false} ToLowerConcat(a: string, b: string)
    ensures ToLower(a + b) == ToLower(a) + ToLower(b)
    decreases |a|
  {
    if |a| == 0 {
      assert a + b == b;
    } else {
      assert (a + b)[1..] == a[1..] + b;
      ToLowerConcat(a[1..], b);
    }
  }

  /** On text without the two special characters, lowering is the
      character-by-character map. */
  lemma {:induction false} ToLowerPointwise(s: string)
    requires forall k | 0 <= k < |s| :: s[k] as int != 0x130 && s[k] as int != 0x212A
    ensures |ToLower(s)| == |s|
    ensures forall k | 0 <= k < |s| :: ToLower(s)[k] == LowerChar(s[k])
    decreases |s|
  {
    if |s| > 0 {
      ToLowerPointwise(s[1..]);
    }
  }

  /** Lowering twice is lowering once. */
  lemma {:induction false} ToLowerIdempotent(s: string)
    ensures ToLower(ToLower(s)) == ToLower(s)
    decreases |s|
  {
    if |s| > 0 {
      var h, t := LowerText(s[0]), ToLower(s[1..]);
      assert ToLower(s) == h + t;
      ToLowerConcat(h, t);
      ToLowerIdempotent(s[1..]);
      LowerTextStable(s[0]);
    }
  }

  /** The lowered text of one character lowers to itself. */
  lemma {:induction false} LowerTextStable(c: char)
    ensures ToLower(LowerText(c)) == LowerText(c)
  {
    var h := LowerText(c);
    if |h| == 1 {
      assert ToLower(h) == LowerText(h[0]) + ToLower(h[1..]);
    } else {
      assert h[1..] == [0x307 as char];
      assert ToLower(h[1..]) == LowerText(h[1]) + ToLower(h[1..][1..]);
      assert ToLower(h) == LowerText(h[0]) + ToLower(h[1..]);
    }
  }

  // ---------------------------------------------------------------------------
  // UTF-16 length: JavaScript measures strings in 16-bit code units

  /** The code units of `c`: a character beyond the Basic Multilingual Plane
      is a surrogate pair. */
  function Units(c: char): (n: nat)
    ensures 1 <= n <= 2
  {
    if c as int >= 0x10000 then 2 else 1
  }

  /** `s.length` in JavaScript. */
  function Utf16Length(s: string): (n: nat)
    ensures |s| <= n <= 2 * |s|
    ensures n == |s| <==> forall k | 0 <= k < |s| :: Units(s[k]) == 1
    decreases |s|
  {
    if |s| == 0 then 0 else Utf16Length(s[..|s| - 1]) + Units(s[|s| - 1])
  }

  lemma {:induction false} Utf16Concat(a: string, b: string)
    ensures Utf16Length(a + b) == Utf16Length(a) + Utf16Length(b)
    decreases |b|
  {
    if |b| == 0 {
      assert a + b == a;
    } else {
      assert (a + b)[..|a + b| - 1] == a + b[..|b| - 1];
      Utf16Concat(a, b[..|b| - 1]);
    }
  }

  lemma {:induction false} Utf16Step(s: string, k: nat)
    requires k < |s|
    ensures Utf16Length(s[..k + 1]) == Utf16Length(s[..k]) + Units(s[k])
  {
    assert s[..k + 1][..k] == s[..k];
  }

  lemma {:induction false} Utf16PrefixAtMost(s: string, k: nat)
    requires k <= |s|
    ensures Utf16Length(s[..k]) <= Utf16Length(s)
  {
    assert s == s[..k] + s[k..];
    Utf16Concat(s[..k], s[k..]);
  }

  /** How many characters of `s`, counting on from `k`, fit in `limit` code units. */
  function FitCount(s: string, limit: nat, k: nat): (r: nat)
    requires k <= |s| && Utf16Length(s[..k]) <= limit
    ensures k <= r <= |s| && Utf16Length(s[..r]) <= limit
    ensures r < |s| ==> Utf16Length(s[..r]) + Units(s[r]) > limit
    decreases |s| - k
  {
    if k < |s| && Utf16Length(s[..k + 1]) <= limit then FitCount(s, limit, k + 1)
    else if k < |s| then Utf16Step(s, k); k
    else k
  }

  /** `s.slice(0, limit)` with `limit` in code units: the longest prefix that
      fits. Where the cut falls inside a surrogate pair, the whole character
      is dropped. */
  function Utf16Take(s: string, limit: nat): (r: string)
    ensures r <= s && Utf16Length(r) <= limit
    ensures Utf16Length(s) <= limit ==> r == s
    ensures |r| < |s| ==> Utf16Length(r) + Units(s[|r|]) > limit
  {
    if Utf16Length(s) <= limit then s else s[..FitCount(s, limit, 0)]
  }

  // ---------------------------------------------------------------------------
  // decimal numerals

  function DigitChar(d: nat): (c: char)
    requires d < 10
    ensures IsDigit(c)
  {
    ('0' as int + d) as char
  }

  /** The decimal numeral of `n`, as a template literal `${n}` prints it. */
  function NatToString(n: nat): (r: string)
    ensures |r| > 0
    ensures forall k | 0 <= k < |r| :: IsDigit(r[k])
    decreases n
  {
    if n < 10 then [DigitChar(n)] else NatToString(n / 10) + [DigitChar(n % 10)]
  }

  /** The value of a string of decimal digits. */
  function DigitsValue(d: string): nat
    requires forall k | 0 <= k < |d| :: IsDigit(d[k])
    decreases |d|
  {
    if |d| == 0 then 0
    else
      var last := d[|d| - 1];
      assert IsDigit(last);
      DigitsValue(d[..|d| - 1]) * 10 + (last as int - '0' as int)
  }

  /** Reading a numeral back gives the number it was printed from. */
  lemma {:induction false} DigitsValueOfNatToString(n: nat)
    ensures DigitsValue(NatToString(n)) == n
    decreases n
  {
    if n >= 10 {
      var r := NatToString(n);
      DigitsValueOfNatToString(n / 10);
      assert r[..|r| - 1] == NatToString(n / 10);
    }
  }

  /** The maximal run of digits that ends `s`. */
  function DigitSuffix(s: string): (r: string)
    ensures |r| <= |s| && r == s[|s| - |r|..]
    ensures forall k | 0 <= k < |r| :: IsDigit(r[k])
    decreases |s|
  {
    if |s| > 0 && IsDigit(s[|s| - 1]) then DigitSuffix(s[..|s| - 1]) + [s[|s| - 1]] else []
  }

  /** Behind a non-digit, the digit suffix of `p + d` is exactly the numeral `d`. */
  lemma {:induction false} DigitSuffixAfter(p: string, d: string)
    requires |p| > 0 && !IsDigit(p[|p| - 1])
    requires forall k | 0 <= k < |d| :: IsDigit(d[k])
    ensures DigitSuffix(p + d) == d
    decreases |d|
  {
    if |d| == 0 {
      assert p + d == p;
    } else {
      assert (p + d)[..|p + d| - 1] == p + d[..|d| - 1];
      DigitSuffixAfter(p, d[..|d| - 1]);
    }
  }

  /** The number a label ends in: the value of its trailing digits. */
  function LabelNumber(s: string): nat {
    DigitsValue(DigitSuffix(s))
  }

  /** The number printed behind a label that ends in a non-digit reads back. */
  lemma {:induction false} LabelNumberOf(p: string, n: nat)
    requires |p| > 0 && !IsDigit(p[|p| - 1])
    ensures LabelNumber(p + NatToString(n)) == n
  {
    DigitSuffixAfter(p, NatToString(n));
    DigitsValueOfNatToString(n);
  }

  /** Printing `n` behind a label that ends in a non-digit can be undone: two such
      strings are equal only if the numbers are. */
  lemma {:induction false} NumberedLabelInjective(p: string, n: nat, q: string, m: nat)
    requires |p| > 0 && !IsDigit(p[|p| - 1])
    requires |q| > 0 && !IsDigit(q[|q| - 1])
    requires p + NatToString(n) == q + NatToString(m)
    ensures n == m
  {
    LabelNumberOf(p, n);
    LabelNumberOf(q, m);
  }
}

=== FILE: wrappers.dfy ===
/** The optional value used wherever the application reads something that may be
    missing: an absent attribute, an undefined request field, a URL that fails to
    parse, a regular expression that finds no match. */
module Wrappers {

  datatype Option<+T> = None | Some(value: T) {

    /** The value, or `default` when there is none (JavaScript's `x || default`
        on a value that is either present or undefined). */
    function GetOr(default: T): T {
      match this
      case Some(v) => v
      case None => default
    }
  }
}
